=== FILE: README.md ===
# audiblebooks-backend: the state-changing handlers in Dafny

This project models the part of the audiblebooks-backend Express service
that changes stored state. It covers three areas:

- **Rating aggregator.** The audiobook document keeps three derived fields
  (`total_ratings`, `total_count`, `average_rating`) that summarise its
  embedded `ratings` array. They are written by `calculateAverageRating`
  and by the handlers `addRating`, `removeRating` and `editRating`.
- **Audiobook lifecycle.** Upload writes an audio file and a cover image
  into a GridFS bucket and then saves the document. Update can replace
  either file and merge scalar fields. Delete removes the document and
  tries to remove its files.
- **User accounts.** This covers registration with its e-mail pattern,
  e-mail verification with a token expiry, the link-based and code-based
  password resets, the profile merge, and the saved-stories list.

Every handler is a pure function. It maps the stores before a request to a
`Reply`, which holds the HTTP status the handler sends and the stores
after the request.

The stores are modelled like this:

- The audiobook collection is a map from document id to document.
- The user collection is a sequence in natural order, because `findOne`
  returns the first match.
- GridFS is a sequence of whole files. Names may repeat. A read by name
  returns the most recent file of that name. A handler's delete removes
  the first match, which is the oldest.

Things outside the handler's control become parameters, so the lemmas hold
for every choice:

- whether a GridFS write or delete fails (`WriteFaults`, `DeleteFaults`,
  `UpdateFaults`);
- the clock (`now`);
- the id Mongo assigns to a new document;
- the avatar index `Math.random` picks;
- the outcome of sending the verification mail;
- the claims of a verified JWT;
- the password hash, an arbitrary function `string -> string`.

Modules, one per file:

- `Common`: `Option`, `Reply`, status codes, and the sequence helpers
  `RemoveAt` (`splice(i, 1)`) and `IndexOf`.
- `AudiobookModel`: the audiobook document, what `save()` validates, and
  `calculateAverageRating`.
- `BlobStore`: the GridFS bucket.
- `AudiobookController`: upload, update, delete, and the rating handlers.
- `UserModel`: the user document, the `findOne` filters, and the e-mail
  pattern.
- `UserController`: the account handlers.

Where the code and its evident intent differ, the model follows the code:

- An upload request without an `audiobook` or `image` part reaches
  `req.files[...][0]` on a missing field. That throws a TypeError, which
  ends as a 500, so the 400 checks after it apply only to empty or
  unnamed parts.
- The `category` sent to upload and update is not a path of the schema,
  which declares `categories`. Mongoose's strict mode drops it, so it
  never reaches the document.
- A malformed id makes `findById` throw a CastError. The rating handlers
  and delete answer that with 500. Update checks the id itself and
  answers 400.
- A well-formed id is cast to an ObjectId before the lookup, and hex
  digits are read in either case. Documents are keyed by the lower-case
  hex string (`IdKey`), so an id written in upper case finds the same
  document.
- `updateAudiobook` writes with `findByIdAndUpdate`, which runs no
  validators. The other writes go through `save()`, which checks the
  required paths and the rating bounds (`ValidForSave`).
- Five handlers are defective as written (see Findings): `addRating`,
  `editRating`, the two saved-stories handlers, and
  `resetPasswordFromMobile`. The last three use paths the user schema does
  not declare (`saved_stories`, `reset_password_otp`,
  `reset_password_otp_expires_in`). The model defines both the as-written
  and the corrected handler. The invariant lemmas are about the corrected
  ones.

## Model

| member | source | states |
|---|---|---|
| AudiobookModel.NewAudiobook | src/models/audiobookModel.js:68-77 | A new document has no ratings and all three aggregates at 0, so the rating invariant holds from the start. |
| AudiobookModel.ValidForSave | src/models/audiobookModel.js:51-80 | Definition only: what `save()` checks, namely non-empty required strings, non-empty categories, and a rater id and a value in [0, 5] on every rating entry. |
| AudiobookModel.CalculateAverageRating | src/models/audiobookModel.js:83-97 | Only the three derived fields change. Afterwards the count is the number of entries, the total is their sum and the average is their mean. An empty array gives zeros. |
| AudiobookModel.CalculateAverageRatingFields | src/models/audiobookModel.js:84-95 | On a non-empty array: count = length, total = sum, average = total / count. On an empty array all three are 0. |
| AudiobookModel.CalculateAverageRatingUnique | src/models/audiobookModel.js:83-97 | The result is the only document that changes nothing but the aggregates and agrees with the ratings. Hence the method is idempotent. |
| AudiobookModel.ReduceRatings | src/models/audiobookModel.js:91 | The left-to-right `reduce` yields the sum of all rating values. |
| AudiobookModel.SumRatingsAppend | src/models/audiobookModel.js:91 | Pushing an entry adds its value to the sum. |
| AudiobookModel.SumRatingsRemoveAt | src/controllers/audiobookController.js:915-918 | Splicing an entry out subtracts its value from the sum, which is what the incremental decrement relies on. |
| AudiobookModel.OnePerUserRemoveAt | src/controllers/audiobookController.js:915 | Splicing an entry out keeps at most one entry per rater. |
| AudiobookModel.SumRatingsUpdate | src/models/audiobookModel.js:91 | Overwriting one entry moves the sum by the difference of the old and new values. |
| AudiobookModel.SumRatingsBounded | src/models/audiobookModel.js:71 | Values within [lo, hi] give a sum within [lo·n, hi·n]. |
| AudiobookModel.MeanWithinBounds | src/models/audiobookModel.js:71 | The average of ratings that satisfy the schema bounds lies within those bounds. |
| BlobStore.Put | src/controllers/audiobookController.js:48-71 | After a finished write, reading the name yields exactly the bytes written, and one more file carries the name. |
| BlobStore.Download | src/controllers/audiobookController.js:211-225 | A read by name yields nothing exactly when no file has the name. Otherwise it yields the contents of a file of that name with no later file of the same name. |
| BlobStore.FirstNamed | src/controllers/audiobookController.js:305-311 | `find({filename}).toArray()[0]` is the first file of that name, and no earlier file has it. |
| BlobStore.LatestNamed | src/controllers/audiobookController.js:211-225 | A read by name resolves to the last file of that name, and no later file has it. |
| BlobStore.DeleteFirstNamed | src/controllers/audiobookController.js:305-321 | A delete by name removes exactly one file of that name when one exists and changes nothing when none exists. Every other name keeps its count and what it reads. |
| BlobStore.PutKeepsOtherNames | src/controllers/audiobookController.js:48-71 | A write under one name leaves what every other name reads, and how many files carry it, unchanged. |
| BlobStore.CountNamedRemoveAt | src/controllers/audiobookController.js:311 | Removing the file at a position lowers only its own name's count, by one. |
| BlobStore.CountNamedZero | src/controllers/audiobookController.js:305-321 | A name's count is 0 exactly when no file carries it. |
| AudiobookController.IsObjectId | src/controllers/audiobookController.js:346 | Definition only: `ObjectId.isValid` as a string of 24 hexadecimal digits. |
| AudiobookController.FindByIdIgnoresHexCase | src/controllers/audiobookController.js:278 | Two ids that differ only in the case of their hex digits find the same document, or fail the same way. |
| AudiobookController.UploadAudiobook | src/controllers/audiobookController.js:14-96 | Missing text fields give 400 with no write. A missing file part gives 500 and an empty or unnamed part gives 400, both with no write. 201 exactly when the request is accepted, both writes succeed and the record passes validation. On 201 the bucket gains the audio file and then the image, and the record is stored under the new id, which is a fresh ObjectId in lower-case hex. No failure path stores a record. The rating invariant is kept. |
| AudiobookController.UploadRoundTrip | src/controllers/audiobookController.js:71-86 | For a fresh lower-case ObjectId, as Mongo generates, a stored upload is found again by `findById` and is exactly the document the handler built. It names the two uploaded files and starts with no ratings. Reading the cover name back yields the image bytes. Reading the audio name back yields the audio bytes only when the two parts are named differently; otherwise the latest file of that name is the image. |
| AudiobookController.DeleteAudiobook | src/controllers/audiobookController.js:273-337 | A malformed id gives 500, an unknown id 404 and a non-owner 403, all with nothing changed. 200 exactly for the owner, and then the document is gone. The bucket never grows. |
| AudiobookController.DeleteByUpperCaseId | src/controllers/audiobookController.js:273-337 | The owner can delete the document stored under 24 lower-case `a`s by sending the id as 24 upper-case `A`s. |
| AudiobookController.DeleteIgnoresFileFaults | src/controllers/audiobookController.js:303-330 | For any two choices of clean-up failures, the status and the remaining documents are the same. |
| AudiobookController.CleanUpFiles | src/controllers/audiobookController.js:303-327 | A failed cover deletion leaves the bucket as it was, and so skips the audio. When the two names differ, one file of the cover name goes, then one of the audio name unless that deletion fails. When the cover and audio share a name, two files of it go, or one if the audio deletion fails, never below zero. Other names are untouched. |
| AudiobookController.DeleteReleasesFiles | src/controllers/audiobookController.js:303-328 | A successful delete leaves other names untouched. When the two names differ, it removes one cover file, then one audio file, each unless its deletion or an earlier one failed. When they share a name and clean-up succeeds, two files of that name go, never below zero. |
| AudiobookController.ApplyUpdate | src/controllers/audiobookController.js:374-460 | Each field present in the request is replaced and each absent one is kept. A replaced file's name becomes the new original name. No other field changes. |
| AudiobookController.ReplaceFile | src/controllers/audiobookController.js:390-425 | Replacing a file fails exactly when the new write fails; a failed deletion of the old file is not fatal. Afterwards the new name reads the new bytes, one file of the old name is gone when its deletion succeeded, and other names read as before. |
| AudiobookController.UpdateAudiobook | src/controllers/audiobookController.js:339-473 | Rejections come in order: malformed id 400, missing 404, no author 401, non-owner 403, each with nothing changed. 200 exactly for the owner when no new-file write fails, and then the document becomes the merge. On 200 the new audio name reads the uploaded audio bytes. The new image name reads the uploaded image bytes unless the audio replacement reuses that name. Without files the bucket is unchanged. No failure changes a document. |
| AudiobookController.UpdateTitleOnly | src/controllers/audiobookController.js:374-460 | A title-only update by the owner succeeds, changes only the title and leaves the bucket alone. |
| AudiobookController.UpdateImageFailureStrandsCover | src/controllers/audiobookController.js:388-421 | When the old cover is deleted and the new cover write fails, the answer is 500 and the document still names the old cover. If that was the only file of its name, nothing can be read under it any more. |
| AudiobookController.UpdateKeepsRatings | src/controllers/audiobookController.js:460 | An update never touches the ratings or their aggregates, so the rating invariant is kept. |
| AudiobookController.RatingRequestValid | src/controllers/audiobookController.js:833-846 | Definition only: the rating is a number in [1, 5], and the review is absent or a string of at most 500 characters. |
| AudiobookController.FirstRatingBy | src/controllers/audiobookController.js:900-902 | `findIndex` returns the first entry with the caller's id, or none exactly when no entry has it. |
| AudiobookController.AppendRating | src/controllers/audiobookController.js:868-874 | 200 exactly when the document with the new entry passes validation; the recomputed aggregates play no part in that. On 200 only this book changes: its ratings gain the caller's entry, its aggregates agree with them, and no other field changes. Otherwise 500 with nothing changed. |
| AudiobookController.AddRating | src/controllers/audiobookController.js:811-881 | No caller gives 401. A rating outside [1,5] or a non-number, or a non-string or over-500-character review, gives 400. A malformed id gives 500, an unknown book 404, and a caller who already rated 400. Each rejection changes nothing. On 200 exactly one entry (caller, value, review or "") is appended, and the aggregates agree with the new array. |
| AudiobookController.AddRatingAsWritten | src/controllers/audiobookController.js:858-860 | As written, any book holding an entry with an id answers a valid rating with 500 and no change. |
| AudiobookController.AddRatingAsWrittenRejectsSecondRater | src/controllers/audiobookController.js:858-860 | On a book with one valid rating, the as-written handler refuses a second rater with 500. The corrected handler accepts the same request. |
| AudiobookController.AddRatingAccepts | src/controllers/audiobookController.js:858-872 | A valid rating from a new rater on a savable document is accepted, and the document stays savable. |
| AudiobookController.AddRatingStep | src/controllers/audiobookController.js:858-872 | A valid rating without review from a new rater appends (rater, value, ""). The aggregates become the sum, count and mean of the new array, and the total grows by exactly the new value. |
| AudiobookController.AddRatingKeepsInvariant | src/controllers/audiobookController.js:858-872 | Adding a rating keeps every document's aggregates in agreement and one entry per rater. |
| AudiobookController.AddRatingAverageWithinBounds | src/models/audiobookModel.js:71 | After a stored rating, the average lies within the schema's rating bounds [0, 5]. |
| AudiobookController.RemoveRating | src/controllers/audiobookController.js:883-935 | No caller gives 401. A body without `audiobookId` or an unknown book gives 404, a malformed id 500, and no entry of the caller's 400, each with no change. On 200 the caller's first entry is spliced out, the total drops by its value, the count drops by 1, the average is total/count or 0, and nothing else changes. |
| AudiobookController.RemoveRatingKeepsInvariant | src/controllers/audiobookController.js:915-925 | The incremental decrement keeps the aggregates in agreement with the ratings and keeps one entry per rater. Afterwards the caller has no entry. |
| AudiobookController.RemoveRatingAccepts | src/controllers/audiobookController.js:900-930 | A rater can always take back their own entry from a savable document: the answer is 200. |
| AudiobookController.EditRatingDraft | src/controllers/audiobookController.js:952-963 | The draft always appends an entry without a rater id. `total_ratings` becomes the entry count, the average becomes sum/length, and `total_count` and everything else stay. |
| AudiobookController.EditRatingDraftBreaksAggregates | src/controllers/audiobookController.js:955-963 | From a consistent document, the draft never has consistent aggregates. |
| AudiobookController.EditRating | src/controllers/audiobookController.js:937-984 | A malformed id gives 500 and an unknown id 404. Only a valid draft could be saved. |
| AudiobookController.EditRatingNeverSaves | src/controllers/audiobookController.js:952-966 | The pushed entry lacks the required `userId`, so the handler as written never succeeds and never changes anything. |
| AudiobookController.EditRatingInPlace | src/controllers/audiobookController.js:937-984 | The corrected edit validates like `addRating` and answers 404 when the caller has no entry. On 200 it overwrites the caller's entry, recomputes the aggregates to agree with the ratings, and changes no other field of the book and no other book. |
| AudiobookController.EditRatingInPlaceKeepsInvariant | src/controllers/audiobookController.js:952-963 | The corrected edit keeps the rating invariant and the count. The total moves by the change in the caller's value. |
| AudiobookController.EditRatingInPlaceAccepts | src/controllers/audiobookController.js:937-984 | A valid edit by a rater with an entry on a savable document gets 200. The number of entries is kept, the document stays savable and the aggregates agree. |
| AudiobookController.RatingScenario | src/models/audiobookModel.js:83-97 | Ratings 4 then 2 give averages 4 then 3. Removing the 4 leaves 2 over one entry. |
| AudiobookController.RatingScenarioAdd | src/controllers/audiobookController.js:858-872 | Ratings 4 then 2 from two raters give averages 4 and then 3, with total 6 over two entries. |
| AudiobookController.RatingScenarioRemove | src/controllers/audiobookController.js:900-930 | Removing the 4 from ratings 4 and 2 (total 6, count 2) leaves an average of 2 over one entry. |
| Common.RemoveAt | src/controllers/audiobookController.js:915 | `splice(i, 1)` keeps the elements before `i` and shifts the later ones down by one. |
| Common.IndexOf | src/controllers/userController.js:769 | `indexOf` returns the first position holding the value, or none exactly when the value is absent. |
| UserModel.NewUser | src/controllers/userController.js:103-111 | A new account is unverified, active and not an admin or author. It holds the hash, the token and its expiry, and has no reset fields and no saved stories. |
| UserModel.MatchesEmailPattern | src/controllers/userController.js:52-53 | Definition only: `^[^\s@]+@[^\s@]+\.[^\s@]+$` as three non-empty runs without white space or `@`, joined by an `@` and a dot. |
| UserModel.FindOne | src/controllers/userController.js:62 | `findOne` returns the first document the filter matches, or none exactly when no document matches. |
| UserModel.EmailPatternIff | src/controllers/userController.js:52-53 | A string matches `^[^\s@]+@[^\s@]+\.[^\s@]+$` exactly when it has no JavaScript white space and exactly one `@`, not first, followed at least two places later by a dot that is not last. |
| UserModel.PatternGivesShape | src/controllers/userController.js:52-53 | A match of the pattern has the single-`@` shape. |
| UserModel.ShapeGivesPattern | src/controllers/userController.js:52-53 | A string of the single-`@` shape matches the pattern. |
| UserModel.TestEmail | src/controllers/userController.js:52-53 | One left-to-right scan accepts exactly the strings the pattern matches. |
| UserController.CreateUser | src/controllers/userController.js:23-128 | A missing field or a non-matching e-mail gives 400 and a taken e-mail gives 409, each creating nothing. 201 exactly when all checks pass and the mail is sent. On 201 one unverified account is appended with the hash, a token valid for two hours and an avatar from the list. E-mails stay unique. |
| UserController.VerifyEmail | src/controllers/userController.js:130-197 | An unknown token gives 400 with no change. An expired token gives 400 and deletes the account only if it is unverified. Otherwise 200: a verified account is unchanged, and an unverified one becomes verified with its token and expiry cleared. |
| UserController.VerifyEmailKeepsEmailsUnique | src/controllers/userController.js:150-177 | Verification never lets two accounts share an e-mail. |
| UserController.VerifyEmailConsumesToken | src/controllers/userController.js:173-178 | After a successful verification, the same token fails at any later time when no other account holds it. |
| UserController.RemoveAtKeepsEmailsUnique | src/controllers/userController.js:150-152 | Deleting an account keeps e-mails unique. |
| UserController.ResetPassword | src/controllers/userController.js:669-727 | An empty token or password gives 400. A token that fails verification gives 500 and one without `userId` gives 400. Otherwise 200 exactly when that user holds the token with an expiry later than now; the password becomes the hash and the reset fields are cleared. Failures change nothing. |
| UserController.ResetPasswordSpendsLink | src/controllers/userController.js:694-719 | When no other account holds the same token, a used reset link fails with 400 and no change at any later time. |
| UserController.ResetPasswordFromMobile | src/controllers/userController.js:299-335 | The corrected handler, with the code paths declared. An empty code or password gives 400. 200 exactly when some account holds the code with an expiry later than now; that account's password becomes the hash and its code fields are cleared. Every failure is 400 with no change. |
| UserController.ResetPasswordFromMobileAsWritten | src/controllers/userController.js:313-316 | As written, no account holds a code. With `strictQuery` off every request gets 400 with no change. With it on, a non-empty code and password reset the first account's password and nothing else. |
| UserController.ResetPasswordFromMobileAsWrittenMisfires | src/controllers/userController.js:313-316 | A live code held by an account is refused as written with `strictQuery` off, where the corrected handler answers 200. With `strictQuery` on, a code nobody holds resets the first account as written, where the corrected handler answers 400. |
| UserController.ResetPasswordFromMobileSpendsCode | src/controllers/userController.js:312-328 | When no other account holds the same code, a used reset code fails with 400 and no change at any later time. |
| UserController.MergeProfile | src/controllers/userController.js:423-438 | Each name and the e-mail keep the stored value when empty and take the given one otherwise. No other field changes. |
| UserController.UpdateUserProfile | src/controllers/userController.js:413-445 | An unknown user gives 404. 409 exactly when a different non-empty e-mail is already held by an account, and then nothing changes. 200 exactly when the user exists and there is no such conflict, and then the user becomes the merge. |
| UserController.StoreKeepsEmailsUnique | src/controllers/userController.js:430-438 | Changing one account to its own or an unused e-mail keeps e-mails unique. |
| UserController.UpdateUserProfileKeepsEmailsUnique | src/controllers/userController.js:430-438 | A profile update never lets two accounts share an e-mail. |
| UserController.SaveSpotifyStory | src/controllers/userController.js:729-753 | An empty id gives 400 and an unknown user 404. 409 exactly when the story is already saved. 200 exactly when the id is non-empty, the user exists and the story is not saved, and then the id is appended. Failures change nothing. |
| UserController.RemoveSpotifyStory | src/controllers/userController.js:755-781 | An empty id gives 400, and an unknown user or an absent story 404, with no change. 200 exactly when the user exists and holds the story, and then only its first occurrence is removed. |
| UserController.StoriesStayDistinct | src/controllers/userController.js:743-776 | Saving and removing keep every saved list free of repeats. After a removal the story is absent. |
| UserController.SaveThenRemoveRestores | src/controllers/userController.js:743-776 | Removing a story right after saving it restores the user collection exactly. |
| UserController.SavedStoriesAsWritten | src/controllers/userController.js:729-781 | As written, `user.saved_stories` is undefined, so both saved-stories handlers answer 500 for an existing user and a non-empty id. They never answer 200 and never change anything. |
| UserController.SavedStoriesAsWrittenFail | src/controllers/userController.js:743-776 | For an existing user and an unsaved story, the as-written handlers answer 500. The corrected ones save the story and remove it again. |

## Left out

- The read handlers are left out because they are GridFS streaming and base64 encoding, not state changes. These are `getAudiobooks`, `getAudioFile`, `getAudiobookCoverImage`, `getAudiobookById`, `getAudiobooksByAuthor`, `getAuthorBooks` and `getCategories`. `BlobStore.Download` stands in for reading a file.
- `searchAudiobooks` and `getAudiobooksByCategory` are left out because their `$regex` matching happens inside the database.
- bcrypt, JWT signing and verification, nodemailer and `Math.random` are parameters, because they are foreign calls. The hash is an arbitrary function, verified claims are an `Option`, mail delivery is a boolean and the avatar pick is an index.
- The image and audio middlewares (sharp, imagemin, ffmpeg) and the Express wiring in app.js and the routes file are left out, because they do no bookkeeping. The error middleware is not part of this model; an error forwarded without a `statusCode` is taken to end as 500.
- `Promise.all` in the upload is modelled as two writes in sequence, audio then image. Each write happens whatever becomes of the other, and the record is saved only after both succeed.
- GridFS chunking and the header-last write are left out, because they are library internals. A write adds a whole file or nothing.
- A failure of `getGridFSBucket` (the "not initialized" 500 in delete) is left out, because it is a process-level fault and not request logic.
- `mongoose.Types.ObjectId.isValid` is modelled as "24 hexadecimal characters". The 12-character string form it also accepts is left out.
- Ratings are `real`, because JavaScript numbers such as 2.5 pass the checks. Floating-point rounding and NaN are not modelled.
- AddRating: a falsy non-string review (`null`, `0`, `false`) is treated like an absent review. Review length is counted in characters, not UTF-16 code units.
- `verifyEmail` renders a page instead of JSON when the client does not ask for JSON. Only the JSON statuses are modelled. A database error in it (500) is not modelled.
- `user.save()` and `User.create` failing for database reasons are not modelled; only the outcomes the handlers decide are.
- Database failures on the audiobook side are not modelled: `newAudiobook.save()` (audiobookController.js:86), `findByIdAndDelete` (:330), `findByIdAndUpdate` (:460) and the rating `save()` calls (:872, :928, :966) failing for reasons other than validation. They all answer 500. Some of them would leave state changed. For example, when `findByIdAndDelete` throws, the GridFS files are already gone (:304-327). So `DeleteAudiobook`'s promise that a non-200 answer changes nothing, and `UpdateAudiobook`'s bucket promises, hold only for a database that accepts every write the handler issues.
- The Mongoose version, and so its `strictQuery` default, is not part of this model. `ResetPasswordFromMobileAsWritten` takes the setting as a parameter.
- UserController.ResetPasswordFromMobileSpendsCode: it requires that no other account holds the same code, because nothing makes reset codes unique across accounts.
- `resendVerificationCode`, `sendPasswordVerificationCode`, `verifyCode`, `loginUser`, `forgotPassword`, `updatePassword`, `updatePreferredLanguage`, `getUserProfile`, `getSpotifyStories` and the Spotify token handler are left out, because they are outside the account core modelled here.
- UserController.ResetPasswordSpendsLink: it requires that no other account holds the same token, because nothing in the schema makes reset tokens unique across accounts.

## Findings

| source | as written | input that shows it | evidently intended | confidence | as-written member | corrected member |
|---|---|---|---|---|---|---|
| src/controllers/audiobookController.js:858-860 | The duplicate check calls `r.userId.equals(userId)`, but `ratings[].userId` is a String (src/models/audiobookModel.js:70) and strings have no `equals`. The handler throws a TypeError and answers 500. | A book with one rating by user A, then a valid rating of 3 from user B. | Compare rater ids as strings: B's rating is appended and the aggregates recomputed. | medium, not executed | AudiobookController.AddRatingAsWrittenRejectsSecondRater | AudiobookController.AddRating |
| src/controllers/audiobookController.js:952-966 | `editRating` pushes `{ rating, review }` with no `userId`, which the schema requires, so `save()` always fails. It also appends instead of editing, and sets `total_ratings` to the entry count. | Any existing book, rating 4, review "ok". | Overwrite the caller's own entry and recompute the aggregates with `calculateAverageRating`. | high, not executed | AudiobookController.EditRatingNeverSaves | AudiobookController.EditRatingInPlace |
| src/controllers/userController.js:743 | The user schema (src/models/userModel.js) declares no `saved_stories` path. A loaded document has no accessor for it, so `user.saved_stories` is undefined and `.includes` throws a TypeError, which ends as 500. | An existing user saving story "s" they have not saved. | Declare `saved_stories` as an array of strings, so the story is appended and 200 is sent. | medium, not executed | UserController.SavedStoriesAsWritten | UserController.SaveSpotifyStory |
| src/controllers/userController.js:769 | `removeSpotifyStory` calls `user.saved_stories.indexOf` on the same undeclared path and throws for the same reason. | An existing user removing a story, right after the save above would have added it. | Remove the first occurrence of the story and send 200. | medium, not executed | UserController.SavedStoriesAsWrittenFail | UserController.RemoveSpotifyStory |
| src/controllers/userController.js:313-316 | The user schema declares neither `reset_password_otp` nor `reset_password_otp_expires_in`. `sendPasswordVerificationCode` (lines 259-261) assigns both, but `save()` drops them, so no stored account holds a code. With `strictQuery` off the query never matches. With it on, the filter is stripped to `{}` and matches the first account. | A user requests a code and sends it back: 400 with `strictQuery` off. Or anyone sends code "1234" for an account they do not own: the first account's password is reset with `strictQuery` on. | Declare both paths, so the account holding a live code is found and only its password is reset. | medium, not executed | UserController.ResetPasswordFromMobileAsWrittenMisfires | UserController.ResetPasswordFromMobile |

=== FILE: audiobook_controller.dfy ===
/** The audiobook handlers of src/controllers/audiobookController.js that
    change state: upload, delete, update and the three rating handlers. The
    document collection is a map from id to document and GridFS is the
    `Bucket` of the BlobStore module. Every handler is a pure function from
    the stores before the request to a `Reply` holding the status code and
    the stores after it. Whether a blob write or delete fails is outside
    the handler's control, so it is a fault parameter, and lemmas quantify
    over all fault choices. */
module AudiobookController {
  import opened Common
  import opened AudiobookModel
  import opened BlobStore

  /** The two stores the handlers touch. */
  datatype Library = Library(books: map<string, Audiobook>, bucket: Bucket)

  /** A multer file part. */
  datatype UploadedFile = UploadedFile(originalname: string, mimetype: string, buffer: seq<bv8>)

  /** The author the authentication middleware puts on the request. */
  datatype Author = Author(id: string, firstName: string)

  /** Upload request. Text fields are "" when absent (the handler tests
      them for truthiness). A file field is `None` when the multipart body
      has no part of that name, and otherwise the parts multer collected. */
  datatype UploadForm = UploadForm(
    title: string,
    description: string,
    category: string,
    audio: Option<seq<UploadedFile>>,
    image: Option<seq<UploadedFile>>)

  /** Which of the two upload streams emits "error". */
  datatype WriteFaults = WriteFaults(audioFails: bool, imageFails: bool)

  /** Which of the two clean-up deletions throws. */
  datatype DeleteFaults = DeleteFaults(coverDeleteFails: bool, audioDeleteFails: bool)

  /** Which deletions of old files throw and which writes of new files fail
      during an update. */
  datatype UpdateFaults = UpdateFaults(
    oldCoverDeleteFails: bool,
    imageWriteFails: bool,
    oldAudioDeleteFails: bool,
    audioWriteFails: bool)

  /** Update request: a body field is `Some` exactly when it is not
      `undefined`; a file is `Some` when that part was uploaded. */
  datatype UpdateRequest = UpdateRequest(
    title: Option<string>,
    description: Option<string>,
    category: Option<string>,
    genre: Option<string>,
    image: Option<UploadedFile>,
    audio: Option<UploadedFile>)

  /** The `rating` of a request body: a JavaScript number or anything else. */
  datatype RatingInput = NumberRating(value: real) | NotANumber

  /** The `review` of a request body: absent, a string, or a truthy value
      of another type. */
  datatype ReviewInput = NoReview | TextReview(text: string) | NonStringReview

  /** Result of `Audiobook.findById`: a malformed id makes Mongoose throw a
      CastError before the query runs. */
  datatype Lookup = CastError | Missing | Found(book: Audiobook)

  /** Genre every new upload is given. */
  const UploadGenre: string := "Add genre here"

  /** Longest review `addRating` accepts. */
  const MaxReviewLength: nat := 500

  predicate IsHexDigit(c: char)
  {
    '0' <= c <= '9' || 'a' <= c <= 'f' || 'A' <= c <= 'F'
  }

  /** `mongoose.Types.ObjectId.isValid` on a 24-character hex string. */
  predicate IsObjectId(s: string)
  {
    |s| == 24 && forall k :: 0 <= k < |s| ==> IsHexDigit(s[k])
  }

  /** A hexadecimal digit as an ObjectId prints it: in lower case. */
  function LowerHexDigit(c: char): char
  {
    if 'A' <= c <= 'F' then (c as int - 'A' as int + 'a' as int) as char else c
  }

  /** The key a request id selects: `findById` casts the id to an ObjectId,
      which reads hex digits in either case, and documents are keyed by the
      ObjectId's lower-case hex string. */
  function IdKey(id: string): (r: string)
    ensures |r| == |id|
    ensures forall k :: 0 <= k < |id| ==> r[k] == LowerHexDigit(id[k])
  {
    seq(|id|, k requires 0 <= k < |id| => LowerHexDigit(id[k]))
  }

  /** An id as Mongo generates it: 24 hex digits printed in lower case, so
      the id is its own key. */
  predicate CanonicalId(id: string)
  {
    IsObjectId(id) && IdKey(id) == id
  }

  /** `Audiobook.findById(id)`. */
  function FindById(books: map<string, Audiobook>, id: string): (r: Lookup)
    ensures r.CastError? <==> !IsObjectId(id)
    ensures r.Missing? <==> IsObjectId(id) && IdKey(id) !in books
    ensures r.Found? ==> IdKey(id) in books && r.book == books[IdKey(id)]
  {
    if !IsObjectId(id) then CastError
    else if IdKey(id) !in books then Missing
    else Found(books[IdKey(id)])
  }

  /** Two ids that differ only in the case of their hex digits find the
      same document, or fail the same way. */
  lemma FindByIdIgnoresHexCase(books: map<string, Audiobook>, a: string, b: string)
    requires |a| == |b| && forall k :: 0 <= k < |a| ==> LowerHexDigit(a[k]) == LowerHexDigit(b[k])
    ensures FindById(books, a) == FindById(books, b)
  {
    assert forall k :: 0 <= k < |a| ==> (IsHexDigit(a[k]) <==> IsHexDigit(b[k])) by {
      forall k | 0 <= k < |a|
        ensures IsHexDigit(a[k]) <==> IsHexDigit(b[k])
      {
        assert IsHexDigit(a[k]) <==> IsHexDigit(LowerHexDigit(a[k]));
        assert IsHexDigit(b[k]) <==> IsHexDigit(LowerHexDigit(b[k]));
      }
    }
    assert IdKey(a) == IdKey(b);
  }

  /** Every document keeps its rating invariant. */
  predicate LibraryInvariant(lib: Library)
  {
    forall id :: id in lib.books ==> RatingsInvariant(lib.books[id])
  }

  // ---------------------------------------------------------------------
  // uploadAudiobook
  // ---------------------------------------------------------------------

  predicate TextFieldsPresent(form: UploadForm)
  {
    form.title != "" && form.description != "" && form.category != ""
  }

  /** The field holds a first part that has a name. */
  predicate FilePartUsable(p: Option<seq<UploadedFile>>)
  {
    p.Some? && |p.value| > 0 && p.value[0].originalname != ""
  }

  /** The request passes every check made before storage is touched. */
  predicate UploadAccepted(form: UploadForm)
  {
    TextFieldsPresent(form) && FilePartUsable(form.audio) && FilePartUsable(form.image)
  }

  function AudioPart(form: UploadForm): UploadedFile
    requires UploadAccepted(form)
  {
    form.audio.value[0]
  }

  function ImagePart(form: UploadForm): UploadedFile
    requires UploadAccepted(form)
  {
    form.image.value[0]
  }

  /** The document the handler builds once both files are stored. The
      body's `category` is not a path of the schema, so Mongoose's strict
      mode drops it and `categories` stays empty. */
  function UploadedRecord(form: UploadForm, author: Author, now: int): Audiobook
    requires UploadAccepted(form)
  {
    NewAudiobook(author.id, author.firstName, form.title, form.description, UploadGenre,
                 ImagePart(form).originalname, AudioPart(form).originalname, now)
  }

  /** `uploadAudiobook`. `newId` is the id Mongo assigns to the new
      document: a fresh ObjectId in its lower-case hex form. */
  function UploadAudiobook(lib: Library, form: UploadForm, author: Author, newId: string,
                           now: int, faults: WriteFaults): (r: Reply<Library>)
    requires CanonicalId(newId) && newId !in lib.books
    ensures !TextFieldsPresent(form) ==> r == Reply(StatusBadRequest, lib)
    ensures TextFieldsPresent(form) && (form.audio.None? || form.image.None?) ==>
                r == Reply(StatusServerError, lib)
    ensures TextFieldsPresent(form) && form.audio.Some? && form.image.Some? && !UploadAccepted(form) ==>
                r == Reply(StatusBadRequest, lib)
    ensures UploadAccepted(form) && (faults.audioFails || faults.imageFails) ==>
                r.status == StatusServerError
    ensures r.status != StatusCreated ==> r.state.books == lib.books
    ensures r.status == StatusCreated <==>
              UploadAccepted(form) && !faults.audioFails && !faults.imageFails
              && ValidForSave(UploadedRecord(form, author, now))
    ensures r.status == StatusCreated ==>
              && UploadAccepted(form)
              && r.state.bucket == lib.bucket
                   + [Blob(AudioPart(form).originalname, AudioPart(form).mimetype, AudioPart(form).buffer),
                      Blob(ImagePart(form).originalname, ImagePart(form).mimetype, ImagePart(form).buffer)]
              && r.state.books == lib.books[newId := UploadedRecord(form, author, now)]
    ensures LibraryInvariant(lib) ==> LibraryInvariant(r.state)
  {
    if !TextFieldsPresent(form) then Reply(StatusBadRequest, lib)
    // req.files["audiobook"][0] and req.files["image"][0] throw a TypeError
    // when the part is missing; the 400 checks below are never reached.
    else if form.audio.None? || form.image.None? then Reply(StatusServerError, lib)
    else if !FilePartUsable(form.audio) then Reply(StatusBadRequest, lib)
    else if !FilePartUsable(form.image) then Reply(StatusBadRequest, lib)
    else
      var audio := AudioPart(form);
      var image := ImagePart(form);
      // Both streams are started before either is awaited, so each write
      // happens whatever becomes of the other.
      var afterAudio := if faults.audioFails then lib.bucket
                        else Put(lib.bucket, audio.originalname, audio.mimetype, audio.buffer);
      var afterImage := if faults.imageFails then afterAudio
                        else Put(afterAudio, image.originalname, image.mimetype, image.buffer);
      if faults.audioFails || faults.imageFails then
        Reply(StatusServerError, lib.(bucket := afterImage))
      else
        var rec := UploadedRecord(form, author, now);
        if !ValidForSave(rec) then Reply(StatusServerError, lib.(bucket := afterImage))
        else Reply(StatusCreated, Library(lib.books[newId := rec], afterImage))
  }

  /** A stored upload is found again by its id, references exactly the two
      uploaded file names, starts with no ratings, and reading its names back
      yields the uploaded bytes (the audio only when the two parts are not
      named alike, since a read resolves to the most recent file of a name). */
  lemma UploadRoundTrip(lib: Library, form: UploadForm, author: Author, newId: string,
                        now: int, faults: WriteFaults)
    requires CanonicalId(newId) && newId !in lib.books
    requires UploadAudiobook(lib, form, author, newId, now, faults).status == StatusCreated
    ensures UploadAccepted(form)
    ensures var r := UploadAudiobook(lib, form, author, newId, now, faults).state;
            && FindById(r.books, newId) == Found(UploadedRecord(form, author, now))
            && newId in r.books
            && r.books[newId].coverImage == ImagePart(form).originalname
            && r.books[newId].audioFile == AudioPart(form).originalname
            && r.books[newId].ratings == []
            && RatingsInvariant(r.books[newId])
            && Download(r.bucket, r.books[newId].coverImage) == Some(ImagePart(form).buffer)
            && (AudioPart(form).originalname != ImagePart(form).originalname ==>
                  Download(r.bucket, r.books[newId].audioFile) == Some(AudioPart(form).buffer))
  {
    var audio := AudioPart(form);
    var image := ImagePart(form);
    var mid := Put(lib.bucket, audio.originalname, audio.mimetype, audio.buffer);
    PutKeepsOtherNames(mid, image.originalname, image.mimetype, image.buffer);
    assert Put(mid, image.originalname, image.mimetype, image.buffer) == lib.bucket
      + [Blob(audio.originalname, audio.mimetype, audio.buffer), Blob(image.originalname, image.mimetype, image.buffer)];
  }

  // ---------------------------------------------------------------------
  // deleteAudiobook
  // ---------------------------------------------------------------------

  /** `n` less `k`, stopping at zero. */
  function Drop(n: nat, k: nat): nat
  {
    if n <= k then 0 else n - k
  }

  /** The clean-up block: both deletions share one try, so a failure while
      deleting the cover image skips the audio file. */
  function CleanUpFiles(bk: Bucket, b: Audiobook, faults: DeleteFaults): (r: Bucket)
    ensures faults.coverDeleteFails ==> r == bk
    ensures forall other :: other != b.coverImage && other != b.audioFile ==> CountNamed(r, other) == CountNamed(bk, other)
    ensures !faults.coverDeleteFails && b.coverImage != b.audioFile && CountNamed(bk, b.coverImage) > 0 ==>
              CountNamed(r, b.coverImage) == CountNamed(bk, b.coverImage) - 1
    ensures !faults.coverDeleteFails && !faults.audioDeleteFails && b.coverImage != b.audioFile
            && CountNamed(bk, b.audioFile) > 0 ==>
              CountNamed(r, b.audioFile) == CountNamed(bk, b.audioFile) - 1
    ensures faults.audioDeleteFails && b.coverImage != b.audioFile ==> CountNamed(r, b.audioFile) == CountNamed(bk, b.audioFile)
    ensures !faults.coverDeleteFails && b.coverImage == b.audioFile ==>
              CountNamed(r, b.coverImage) == Drop(CountNamed(bk, b.coverImage), if faults.audioDeleteFails then 1 else 2)
  {
    if faults.coverDeleteFails then bk
    else
      var afterCover := DeleteFirstNamed(bk, b.coverImage);
      if faults.audioDeleteFails then afterCover else DeleteFirstNamed(afterCover, b.audioFile)
  }

  /** `deleteAudiobook`. `token` is the `authorId` claim of the verified
      bearer token, or `None` when `jwt.verify` throws. */
  function DeleteAudiobook(lib: Library, id: string, token: Option<string>,
                           faults: DeleteFaults): (r: Reply<Library>)
    ensures !IsObjectId(id) ==> r == Reply(StatusServerError, lib)
    ensures IsObjectId(id) && IdKey(id) !in lib.books ==> r == Reply(StatusNotFound, lib)
    ensures IsObjectId(id) && IdKey(id) in lib.books && token.Some? && token.value != lib.books[IdKey(id)].authorId ==>
                r == Reply(StatusForbidden, lib)
    ensures r.status == StatusOk <==>
              IsObjectId(id) && IdKey(id) in lib.books && token == Some(lib.books[IdKey(id)].authorId)
    ensures r.status != StatusOk ==> r.state == lib
    ensures r.status == StatusOk ==> IdKey(id) in lib.books && r.state.books == lib.books - {IdKey(id)}
    ensures |r.state.bucket| <= |lib.bucket|
    ensures LibraryInvariant(lib) ==> LibraryInvariant(r.state)
  {
    match FindById(lib.books, id)
    case CastError => Reply(StatusServerError, lib)
    case Missing => Reply(StatusNotFound, lib)
    case Found(b) =>
      if token.None? then Reply(StatusServerError, lib)
      else if b.authorId != token.value then Reply(StatusForbidden, lib)
      else
        // The metadata goes whatever the clean-up did.
        Reply(StatusOk, Library(lib.books - {IdKey(id)}, CleanUpFiles(lib.bucket, b, faults)))
  }

  /** An id written with upper-case hex digits finds the document stored
      under the lower-case form, so its owner can delete it. */
  lemma DeleteByUpperCaseId(lib: Library, owner: string, faults: DeleteFaults)
    requires "aaaaaaaaaaaaaaaaaaaaaaaa" in lib.books && lib.books["aaaaaaaaaaaaaaaaaaaaaaaa"].authorId == owner
    ensures var r := DeleteAudiobook(lib, "AAAAAAAAAAAAAAAAAAAAAAAA", Some(owner), faults);
            r.status == StatusOk && "aaaaaaaaaaaaaaaaaaaaaaaa" !in r.state.books
  {
    assert IdKey("AAAAAAAAAAAAAAAAAAAAAAAA") == "aaaaaaaaaaaaaaaaaaaaaaaa";
  }

  /** The document's removal does not depend on whether GridFS clean-up
      failed: for any two fault choices the same documents remain. */
  lemma DeleteIgnoresFileFaults(lib: Library, id: string, token: Option<string>,
                                f1: DeleteFaults, f2: DeleteFaults)
    ensures DeleteAudiobook(lib, id, token, f1).status == DeleteAudiobook(lib, id, token, f2).status
    ensures DeleteAudiobook(lib, id, token, f1).state.books == DeleteAudiobook(lib, id, token, f2).state.books
  {
  }

  /** A successful delete takes one file of each referenced name out of the
      bucket when clean-up succeeds (two of the one name when cover and audio
      are named alike), and never touches files of other names. */
  lemma DeleteReleasesFiles(lib: Library, id: string, token: Option<string>,
                            faults: DeleteFaults, other: string)
    requires DeleteAudiobook(lib, id, token, faults).status == StatusOk
    ensures IdKey(id) in lib.books
    ensures var b := lib.books[IdKey(id)];
            var bk := DeleteAudiobook(lib, id, token, faults).state.bucket;
            && (other != b.coverImage && other != b.audioFile ==>
                  CountNamed(bk, other) == CountNamed(lib.bucket, other))
            && ((!faults.coverDeleteFails && b.coverImage != b.audioFile
                 && CountNamed(lib.bucket, b.coverImage) > 0) ==>
                  CountNamed(bk, b.coverImage) == CountNamed(lib.bucket, b.coverImage) - 1)
            && ((!faults.coverDeleteFails && !faults.audioDeleteFails && b.coverImage != b.audioFile
                 && CountNamed(lib.bucket, b.audioFile) > 0) ==>
                  CountNamed(bk, b.audioFile) == CountNamed(lib.bucket, b.audioFile) - 1)
            && ((!faults.coverDeleteFails && !faults.audioDeleteFails && b.coverImage == b.audioFile) ==>
                  CountNamed(bk, b.coverImage) == Drop(CountNamed(lib.bucket, b.coverImage), 2))
  {
  }

  // ---------------------------------------------------------------------
  // updateAudiobook
  // ---------------------------------------------------------------------

  /** The `updateData` merge: the fields present in the request and the
      names of replaced files; `category` is not a schema path and Mongoose
      strips it from the update. */
  function ApplyUpdate(b: Audiobook, req: UpdateRequest): (r: Audiobook)
    ensures r.title == req.title.GetOr(b.title)
    ensures r.description == req.description.GetOr(b.description)
    ensures r.genre == req.genre.GetOr(b.genre)
    ensures r.coverImage == (if req.image.Some? then req.image.value.originalname else b.coverImage)
    ensures r.audioFile == (if req.audio.Some? then req.audio.value.originalname else b.audioFile)
    ensures r.(title := b.title, description := b.description, genre := b.genre,
               coverImage := b.coverImage, audioFile := b.audioFile) == b
  {
    var withTitle := if req.title.Some? then b.(title := req.title.value) else b;
    var withDescription := if req.description.Some? then withTitle.(description := req.description.value) else withTitle;
    var withGenre := if req.genre.Some? then withDescription.(genre := req.genre.value) else withDescription;
    var withCover := if req.image.Some? then withGenre.(coverImage := req.image.value.originalname) else withGenre;
    if req.audio.Some? then withCover.(audioFile := req.audio.value.originalname) else withCover
  }

  /** The caller may change the document: it exists and is theirs. */
  predicate MayUpdate(lib: Library, id: string, caller: Option<string>)
  {
    IsObjectId(id) && IdKey(id) in lib.books && caller.Some? && caller.value == lib.books[IdKey(id)].authorId
  }

  /** Replacing one file: delete the first file of the old name (a failure
      is only logged), then write the new one. `None` when the write fails. */
  function ReplaceFile(bk: Bucket, oldName: string, file: UploadedFile,
                       deleteFails: bool, writeFails: bool): (r: Option<Bucket>)
    ensures r.None? <==> writeFails
    ensures r.Some? ==> Download(r.value, file.originalname) == Some(file.buffer)
    ensures r.Some? && !deleteFails && oldName != file.originalname && CountNamed(bk, oldName) > 0 ==>
              CountNamed(r.value, oldName) == CountNamed(bk, oldName) - 1
    ensures r.Some? ==> forall other :: other != oldName && other != file.originalname ==>
              Download(r.value, other) == Download(bk, other)
  {
    var afterDelete := if deleteFails then bk else DeleteFirstNamed(bk, oldName);
    PutKeepsOtherNames(afterDelete, file.originalname, file.mimetype, file.buffer);
    if writeFails then None else Some(Put(afterDelete, file.originalname, file.mimetype, file.buffer))
  }

  /** `updateAudiobook`. `caller` is the authenticated author's id, `None`
      when there is none. */
  function UpdateAudiobook(lib: Library, id: string, caller: Option<string>,
                           req: UpdateRequest, faults: UpdateFaults): (r: Reply<Library>)
    ensures !IsObjectId(id) ==> r == Reply(StatusBadRequest, lib)
    ensures IsObjectId(id) && IdKey(id) !in lib.books ==> r == Reply(StatusNotFound, lib)
    ensures IsObjectId(id) && IdKey(id) in lib.books && caller.None? ==> r == Reply(StatusUnauthorized, lib)
    ensures IsObjectId(id) && IdKey(id) in lib.books && caller.Some? && caller.value != lib.books[IdKey(id)].authorId ==>
                r == Reply(StatusForbidden, lib)
    ensures r.status == StatusOk <==>
              MayUpdate(lib, id, caller)
              && !(req.image.Some? && faults.imageWriteFails)
              && !(req.audio.Some? && faults.audioWriteFails)
    ensures r.status == StatusOk ==>
              IdKey(id) in lib.books && r.state.books == lib.books[IdKey(id) := ApplyUpdate(lib.books[IdKey(id)], req)]
    ensures r.status != StatusOk ==> r.state.books == lib.books
    ensures !MayUpdate(lib, id, caller) ==> r.state == lib
    ensures r.status == StatusOk && req.image.None? && req.audio.None? ==> r.state.bucket == lib.bucket
    ensures r.status == StatusOk && req.audio.Some? ==>
              Download(r.state.bucket, req.audio.value.originalname) == Some(req.audio.value.buffer)
    ensures r.status == StatusOk && req.image.Some? && IdKey(id) in lib.books
            && (req.audio.Some? ==> req.audio.value.originalname != req.image.value.originalname
                                    && lib.books[IdKey(id)].audioFile != req.image.value.originalname) ==>
              Download(r.state.bucket, req.image.value.originalname) == Some(req.image.value.buffer)
  {
    if !IsObjectId(id) then Reply(StatusBadRequest, lib)
    else if IdKey(id) !in lib.books then Reply(StatusNotFound, lib)
    else if caller.None? then Reply(StatusUnauthorized, lib)
    else
      var b := lib.books[IdKey(id)];
      if caller.value != b.authorId then Reply(StatusForbidden, lib)
      else
        var oldCoverGone := if req.image.Some? && !faults.oldCoverDeleteFails
                            then DeleteFirstNamed(lib.bucket, b.coverImage) else lib.bucket;
        if req.image.Some? && faults.imageWriteFails then
          Reply(StatusServerError, lib.(bucket := oldCoverGone))
        else
          var afterImage :=
            if req.image.Some?
            then ReplaceFile(lib.bucket, b.coverImage, req.image.value,
                             faults.oldCoverDeleteFails, false).value
            else lib.bucket;
          var oldAudioGone := if req.audio.Some? && !faults.oldAudioDeleteFails
                              then DeleteFirstNamed(afterImage, b.audioFile) else afterImage;
          if req.audio.Some? && faults.audioWriteFails then
            Reply(StatusServerError, lib.(bucket := oldAudioGone))
          else
            var afterAudio :=
              if req.audio.Some?
              then ReplaceFile(afterImage, b.audioFile, req.audio.value,
                               faults.oldAudioDeleteFails, false).value
              else afterImage;
            Reply(StatusOk, Library(lib.books[IdKey(id) := ApplyUpdate(b, req)], afterAudio))
  }

  /** An update that carries only a title leaves every other field of the
      document, and the bucket, as they were. */
  lemma UpdateTitleOnly(lib: Library, id: string, caller: Option<string>, title: string,
                        faults: UpdateFaults)
    requires MayUpdate(lib, id, caller)
    ensures var r := UpdateAudiobook(lib, id, caller, UpdateRequest(Some(title), None, None, None, None, None), faults);
            && r.status == StatusOk
            && r.state.bucket == lib.bucket
            && r.state.books[IdKey(id)] == lib.books[IdKey(id)].(title := title)
  {
  }

  /** The hazard of deleting before writing: when the old cover is gone
      and the new cover's write fails, the handler answers 500 and keeps
      the document, whose `coverImage` still names the old file. When that
      was the only file of the name, nothing can be read under it any more. */
  lemma UpdateImageFailureStrandsCover(lib: Library, id: string, caller: Option<string>,
                                       req: UpdateRequest, faults: UpdateFaults)
    requires MayUpdate(lib, id, caller)
    requires req.image.Some? && !faults.oldCoverDeleteFails && faults.imageWriteFails
    requires CountNamed(lib.bucket, lib.books[IdKey(id)].coverImage) == 1
    ensures var r := UpdateAudiobook(lib, id, caller, req, faults);
            && r.status == StatusServerError
            && r.state.books[IdKey(id)].coverImage == lib.books[IdKey(id)].coverImage
            && Download(r.state.bucket, r.state.books[IdKey(id)].coverImage).None?
  {
    var r := UpdateAudiobook(lib, id, caller, req, faults);
    CountNamedZero(r.state.bucket, lib.books[IdKey(id)].coverImage);
  }

  /** A successful update never touches the ratings or their aggregates. */
  lemma UpdateKeepsRatings(lib: Library, id: string, caller: Option<string>,
                           req: UpdateRequest, faults: UpdateFaults)
    requires LibraryInvariant(lib)
    ensures LibraryInvariant(UpdateAudiobook(lib, id, caller, req, faults).state)
    ensures UpdateAudiobook(lib, id, caller, req, faults).status == StatusOk ==>
              var b' := UpdateAudiobook(lib, id, caller, req, faults).state.books[IdKey(id)];
              b'.ratings == lib.books[IdKey(id)].ratings
              && b'.totalRatings == lib.books[IdKey(id)].totalRatings
              && b'.totalCount == lib.books[IdKey(id)].totalCount
              && b'.averageRating == lib.books[IdKey(id)].averageRating
  {
  }

  // ---------------------------------------------------------------------
  // Rating handlers
  // ---------------------------------------------------------------------

  /** Input checks of `addRating`: a number in [1, 5], and a review that is
      falsy or a string of at most 500 characters. */
  predicate RatingRequestValid(rating: RatingInput, review: ReviewInput)
  {
    && rating.NumberRating? && 1.0 <= rating.value <= 5.0
    && !review.NonStringReview?
    && (review.TextReview? ==> |review.text| <= MaxReviewLength)
  }

  /** The review the new entry stores; an absent review takes the default. */
  function StoredReview(review: ReviewInput): string
  {
    match review
    case TextReview(t) => t
    case _ => DefaultReview
  }

  /** The `userId` test both `removeRating` and the corrected `addRating`
      use: the entry has an id and it is the caller's. */
  predicate RatedBy(e: RatingEntry, userId: string)
  {
    e.userId != "" && e.userId == userId
  }

  predicate HasRated(rs: seq<RatingEntry>, userId: string)
  {
    exists k :: 0 <= k < |rs| && RatedBy(rs[k], userId)
  }

  /** `findIndex` of the caller's entry. */
  function FirstRatingBy(rs: seq<RatingEntry>, userId: string): (r: Option<nat>)
    ensures r.Some? ==> r.value < |rs| && RatedBy(rs[r.value], userId)
    ensures r.Some? ==> forall k :: 0 <= k < r.value ==> !RatedBy(rs[k], userId)
    ensures r.None? <==> !HasRated(rs, userId)
  {
    if |rs| == 0 then None
    else if RatedBy(rs[0], userId) then Some(0)
    else
      match FirstRatingBy(rs[1..], userId)
      case None =>
        assert forall k :: 1 <= k < |rs| ==> rs[k] == rs[1..][k - 1];
        None
      case Some(k) => Some(k + 1)
  }

  /** Push the caller's entry, recompute the aggregates, save. The save
      succeeds exactly when the document with the new entry validates; the
      recomputed aggregates play no part in that. */
  function AppendRating(lib: Library, id: string, b: Audiobook, userId: string,
                        rating: real, review: ReviewInput): (r: Reply<Library>)
    ensures r.status == StatusOk || r == Reply(StatusServerError, lib)
    ensures r.status == StatusOk <==>
              ValidForSave(b.(ratings := b.ratings + [RatingEntry(userId, rating, StoredReview(review))]))
    ensures r.status == StatusOk ==>
              && IdKey(id) in r.state.books
              && r.state == lib.(books := lib.books[IdKey(id) := r.state.books[IdKey(id)]])
              && r.state.books[IdKey(id)].ratings == b.ratings + [RatingEntry(userId, rating, StoredReview(review))]
              && AggregatesAgree(r.state.books[IdKey(id)])
              && SameExceptAggregates(b.(ratings := r.state.books[IdKey(id)].ratings), r.state.books[IdKey(id)])
  {
    var rated := CalculateAverageRating(b.(ratings := b.ratings + [RatingEntry(userId, rating, StoredReview(review))]));
    if ValidForSave(rated) then Reply(StatusOk, lib.(books := lib.books[IdKey(id) := rated]))
    else Reply(StatusServerError, lib)
  }

  /** `addRating` with the duplicate check comparing rater ids as strings,
      which is what the handler's comment says it means to do. */
  function AddRating(lib: Library, id: string, caller: Option<string>,
                     rating: RatingInput, review: ReviewInput): (r: Reply<Library>)
    ensures caller.None? ==> r == Reply(StatusUnauthorized, lib)
    ensures caller.Some? && !RatingRequestValid(rating, review) ==> r == Reply(StatusBadRequest, lib)
    ensures caller.Some? && RatingRequestValid(rating, review) && !IsObjectId(id) ==> r == Reply(StatusServerError, lib)
    ensures caller.Some? && RatingRequestValid(rating, review) && IsObjectId(id) && IdKey(id) !in lib.books ==>
                r == Reply(StatusNotFound, lib)
    ensures (caller.Some? && RatingRequestValid(rating, review) && IsObjectId(id) && IdKey(id) in lib.books
             && HasRated(lib.books[IdKey(id)].ratings, caller.value)) ==>
                r == Reply(StatusBadRequest, lib)
    ensures r.status != StatusOk ==> r.state == lib
    ensures r.status == StatusOk ==>
              && caller.Some? && RatingRequestValid(rating, review) && IdKey(id) in lib.books
              && !HasRated(lib.books[IdKey(id)].ratings, caller.value)
              && r.state.bucket == lib.bucket
              && r.state.books.Keys == lib.books.Keys
              && (forall other :: other in lib.books && other != IdKey(id) ==> r.state.books[other] == lib.books[other])
              && r.state.books[IdKey(id)].ratings
                   == lib.books[IdKey(id)].ratings + [RatingEntry(caller.value, rating.value, StoredReview(review))]
              && AggregatesAgree(r.state.books[IdKey(id)])
              && SameExceptAggregates(lib.books[IdKey(id)].(ratings := r.state.books[IdKey(id)].ratings), r.state.books[IdKey(id)])
  {
    if caller.None? then Reply(StatusUnauthorized, lib)
    else if !RatingRequestValid(rating, review) then Reply(StatusBadRequest, lib)
    else
      match FindById(lib.books, id)
      case CastError => Reply(StatusServerError, lib)
      case Missing => Reply(StatusNotFound, lib)
      case Found(b) =>
        if FirstRatingBy(b.ratings, caller.value).Some? then Reply(StatusBadRequest, lib)
        else AppendRating(lib, id, b, caller.value, rating.value, review)
  }

  /** Some entry carries a rater id, so `find` calls `r.userId.equals`. */
  predicate HasRaterId(rs: seq<RatingEntry>)
  {
    exists k :: 0 <= k < |rs| && rs[k].userId != ""
  }

  /** `addRating` as written. The schema stores `ratings[].userId` as a
      String, and a string has no `equals` method, so the duplicate check
      throws a TypeError, answered with 500, on the first entry that has
      an id. */
  function AddRatingAsWritten(lib: Library, id: string, caller: Option<string>,
                              rating: RatingInput, review: ReviewInput): (r: Reply<Library>)
    ensures r.status != StatusOk ==> r.state == lib
    ensures (caller.Some? && RatingRequestValid(rating, review) && IsObjectId(id) && IdKey(id) in lib.books
             && HasRaterId(lib.books[IdKey(id)].ratings)) ==>
                r == Reply(StatusServerError, lib)
  {
    if caller.None? then Reply(StatusUnauthorized, lib)
    else if !RatingRequestValid(rating, review) then Reply(StatusBadRequest, lib)
    else
      match FindById(lib.books, id)
      case CastError => Reply(StatusServerError, lib)
      case Missing => Reply(StatusNotFound, lib)
      case Found(b) =>
        if HasRaterId(b.ratings) then Reply(StatusServerError, lib)
        else AppendRating(lib, id, b, caller.value, rating.value, review)
  }

  /** The discrepancy: once a book holds one valid rating, the handler as
      written refuses every further rating with 500, where the intended
      handler accepts a first rating from a different rater. */
  lemma AddRatingAsWrittenRejectsSecondRater(lib: Library, id: string, caller: string,
                                            rating: real, review: ReviewInput)
    requires IsObjectId(id) && IdKey(id) in lib.books
    requires ValidForSave(lib.books[IdKey(id)]) && |lib.books[IdKey(id)].ratings| == 1
    requires lib.books[IdKey(id)].ratings[0].userId != caller && caller != ""
    requires RatingRequestValid(NumberRating(rating), review)
    ensures AddRatingAsWritten(lib, id, Some(caller), NumberRating(rating), review)
              == Reply(StatusServerError, lib)
    ensures AddRating(lib, id, Some(caller), NumberRating(rating), review).status == StatusOk
  {
    var b := lib.books[IdKey(id)];
    assert EntryValid(b.ratings[0]);
    assert !HasRated(b.ratings, caller);
    var entry := RatingEntry(caller, rating, StoredReview(review));
    var rated := CalculateAverageRating(b.(ratings := b.ratings + [entry]));
    assert forall k :: 0 <= k < |rated.ratings| ==> EntryValid(rated.ratings[k]);
  }

  /** `removeRating`: splice the caller's first entry out and adjust the
      stored aggregates by it, without recomputing them. The document id
      comes from the request body, `None` when absent; `findById(undefined)`
      queries for a null id and finds nothing. */
  function RemoveRating(lib: Library, audiobookId: Option<string>, caller: Option<string>): (r: Reply<Library>)
    ensures caller.None? || caller == Some("") ==> r == Reply(StatusUnauthorized, lib)
    ensures caller.Some? && caller.value != "" && audiobookId.None? ==> r == Reply(StatusNotFound, lib)
    ensures caller.Some? && caller.value != "" && audiobookId.Some? && !IsObjectId(audiobookId.value) ==>
                r == Reply(StatusServerError, lib)
    ensures caller.Some? && caller.value != "" && audiobookId.Some? && IsObjectId(audiobookId.value)
            && IdKey(audiobookId.value) !in lib.books ==>
                r == Reply(StatusNotFound, lib)
    ensures (caller.Some? && caller.value != "" && audiobookId.Some? && IsObjectId(audiobookId.value)
             && IdKey(audiobookId.value) in lib.books && !HasRated(lib.books[IdKey(audiobookId.value)].ratings, caller.value)) ==>
                r == Reply(StatusBadRequest, lib)
    ensures r.status != StatusOk ==> r.state == lib
    ensures r.status == StatusOk ==>
              && caller.Some? && audiobookId.Some? && IdKey(audiobookId.value) in lib.books
              && FirstRatingBy(lib.books[IdKey(audiobookId.value)].ratings, caller.value).Some?
              && var id := audiobookId.value;
                 && IdKey(id) in r.state.books
                 && var b := lib.books[IdKey(id)];
                    var i := FirstRatingBy(b.ratings, caller.value).value;
                    var b' := r.state.books[IdKey(id)];
                    && r.state == lib.(books := lib.books[IdKey(id) := b'])
                    && b'.ratings == RemoveAt(b.ratings, i)
                    && b'.totalRatings == b.totalRatings - b.ratings[i].rating
                    && b'.totalCount == b.totalCount - 1
                    && b'.averageRating == (if b'.totalCount > 0 then b'.totalRatings / (b'.totalCount as real) else 0.0)
                    && b'.(ratings := b.ratings, totalRatings := b.totalRatings, totalCount := b.totalCount,
                           averageRating := b.averageRating) == b
  {
    if caller.None? || caller.value == "" then Reply(StatusUnauthorized, lib)
    else if audiobookId.None? then Reply(StatusNotFound, lib)
    else
      var id := audiobookId.value;
      match FindById(lib.books, id)
      case CastError => Reply(StatusServerError, lib)
      case Missing => Reply(StatusNotFound, lib)
      case Found(b) =>
        match FirstRatingBy(b.ratings, caller.value)
        case None => Reply(StatusBadRequest, lib)
        case Some(i) =>
          var total := b.totalRatings - b.ratings[i].rating;
          var count := b.totalCount - 1;
          var b' := b.(ratings := RemoveAt(b.ratings, i), totalRatings := total, totalCount := count,
                       averageRating := if count > 0 then total / (count as real) else 0.0);
          if ValidForSave(b') then Reply(StatusOk, lib.(books := lib.books[IdKey(id) := b']))
          else Reply(StatusServerError, lib)
  }

  /** Decrementing instead of recomputing is sound: when the aggregates
      agreed with the ratings before a removal, they agree after it, and the
      one-entry-per-rater rule survives too. */
  lemma RemoveRatingKeepsInvariant(lib: Library, id: string, caller: Option<string>)
    requires IdKey(id) in lib.books && RatingsInvariant(lib.books[IdKey(id)])
    ensures var r := RemoveRating(lib, Some(id), caller);
            r.status == StatusOk ==> RatingsInvariant(r.state.books[IdKey(id)])
                                     && !HasRated(r.state.books[IdKey(id)].ratings, caller.value)
  {
    var r := RemoveRating(lib, Some(id), caller);
    if r.status == StatusOk {
      var b := lib.books[IdKey(id)];
      var i := FirstRatingBy(b.ratings, caller.value).value;
      var b' := r.state.books[IdKey(id)];
      SumRatingsRemoveAt(b.ratings, i);
      OnePerUserRemoveAt(b.ratings, i);
      forall k | 0 <= k < |b'.ratings|
        ensures !RatedBy(b'.ratings[k], caller.value)
      {
        var k' := if k < i then k else k + 1;
        assert b'.ratings[k] == b.ratings[k'];
      }
    }
  }

  /** The document `editRating` builds before saving: it always appends an
      entry, without a rater id, and sets `total_ratings` to the number of
      entries rather than their sum; `total_count` is left alone. */
  function EditRatingDraft(b: Audiobook, rating: real, review: string): (r: Audiobook)
    ensures r.ratings == b.ratings + [RatingEntry("", rating, review)]
    ensures r.totalRatings == |r.ratings| as real
    ensures r.averageRating == SumRatings(r.ratings) / (|r.ratings| as real)
    ensures r.(totalRatings := b.totalRatings, averageRating := b.averageRating, ratings := b.ratings) == b
  {
    var ratings := b.ratings + [RatingEntry("", rating, review)];
    b.(ratings := ratings,
       averageRating := SumRatings(ratings) / (|ratings| as real),
       totalRatings := |ratings| as real)
  }

  /** The draft never satisfies the aggregate invariant the model method
      keeps, whenever that invariant held before the edit. */
  lemma EditRatingDraftBreaksAggregates(b: Audiobook, rating: real, review: string)
    requires AggregatesAgree(b)
    ensures !AggregatesAgree(EditRatingDraft(b, rating, review))
    ensures |EditRatingDraft(b, rating, review).ratings| == |b.ratings| + 1
  {
  }

  /** `editRating` as written: no identity, no validation, and the draft
      goes through `save()`. */
  function EditRating(lib: Library, id: string, rating: real, review: string): (r: Reply<Library>)
    ensures !IsObjectId(id) ==> r == Reply(StatusServerError, lib)
    ensures IsObjectId(id) && IdKey(id) !in lib.books ==> r == Reply(StatusNotFound, lib)
    ensures r.status != StatusOk ==> r.state == lib
    ensures r.status == StatusOk ==>
              IdKey(id) in lib.books && r.state == lib.(books := lib.books[IdKey(id) := EditRatingDraft(lib.books[IdKey(id)], rating, review)])
  {
    match FindById(lib.books, id)
    case CastError => Reply(StatusServerError, lib)
    case Missing => Reply(StatusNotFound, lib)
    case Found(b) =>
      var draft := EditRatingDraft(b, rating, review);
      if ValidForSave(draft) then Reply(StatusOk, lib.(books := lib.books[IdKey(id) := draft]))
      else Reply(StatusServerError, lib)
  }

  /** The discrepancy: the pushed entry has no `userId`, which the schema
      requires, so every save fails and the handler never changes anything. */
  lemma EditRatingNeverSaves(lib: Library, id: string, rating: real, review: string)
    ensures EditRating(lib, id, rating, review).status != StatusOk
    ensures EditRating(lib, id, rating, review).state == lib
  {
    if IsObjectId(id) && IdKey(id) in lib.books {
      var draft := EditRatingDraft(lib.books[IdKey(id)], rating, review);
      assert !EntryValid(draft.ratings[|draft.ratings| - 1]);
    }
  }

  /** `editRating` as its name, its reply ("Review updated successfully")
      and the one-entry-per-rater design intend it: validate like
      `addRating`, overwrite the caller's own entry in place, and recompute
      the aggregates with `calculateAverageRating`. */
  function EditRatingInPlace(lib: Library, id: string, caller: Option<string>,
                             rating: RatingInput, review: ReviewInput): (r: Reply<Library>)
    ensures caller.None? ==> r == Reply(StatusUnauthorized, lib)
    ensures caller.Some? && !RatingRequestValid(rating, review) ==> r == Reply(StatusBadRequest, lib)
    ensures (caller.Some? && RatingRequestValid(rating, review) && IsObjectId(id) && IdKey(id) in lib.books
             && !HasRated(lib.books[IdKey(id)].ratings, caller.value)) ==>
                r == Reply(StatusNotFound, lib)
    ensures r.status != StatusOk ==> r.state == lib
    ensures r.status == StatusOk ==>
              && caller.Some? && RatingRequestValid(rating, review) && IdKey(id) in lib.books
              && FirstRatingBy(lib.books[IdKey(id)].ratings, caller.value).Some?
              && IdKey(id) in r.state.books
              && var i := FirstRatingBy(lib.books[IdKey(id)].ratings, caller.value).value;
                 && r.state == lib.(books := lib.books[IdKey(id) := r.state.books[IdKey(id)]])
                 && r.state.books[IdKey(id)].ratings
                      == lib.books[IdKey(id)].ratings[i := RatingEntry(caller.value, rating.value, StoredReview(review))]
                 && AggregatesAgree(r.state.books[IdKey(id)])
                 && SameExceptAggregates(lib.books[IdKey(id)].(ratings := r.state.books[IdKey(id)].ratings), r.state.books[IdKey(id)])
  {
    if caller.None? then Reply(StatusUnauthorized, lib)
    else if !RatingRequestValid(rating, review) then Reply(StatusBadRequest, lib)
    else
      match FindById(lib.books, id)
      case CastError => Reply(StatusServerError, lib)
      case Missing => Reply(StatusNotFound, lib)
      case Found(b) =>
        match FirstRatingBy(b.ratings, caller.value)
        case None => Reply(StatusNotFound, lib)
        case Some(i) =>
          var edited := CalculateAverageRating(
            b.(ratings := b.ratings[i := RatingEntry(caller.value, rating.value, StoredReview(review))]));
          if ValidForSave(edited) then Reply(StatusOk, lib.(books := lib.books[IdKey(id) := edited]))
          else Reply(StatusServerError, lib)
  }

  /** The corrected edit keeps one entry per rater and the number of
      entries, and moves the sum by exactly the change of the caller's
      value. */
  lemma EditRatingInPlaceKeepsInvariant(lib: Library, id: string, caller: Option<string>,
                                        rating: RatingInput, review: ReviewInput)
    requires IdKey(id) in lib.books && RatingsInvariant(lib.books[IdKey(id)])
    ensures var r := EditRatingInPlace(lib, id, caller, rating, review);
            r.status == StatusOk ==>
              var b := lib.books[IdKey(id)];
              var b' := r.state.books[IdKey(id)];
              var i := FirstRatingBy(b.ratings, caller.value).value;
              && RatingsInvariant(b')
              && b'.totalCount == b.totalCount
              && b'.totalRatings == b.totalRatings - b.ratings[i].rating + rating.value
  {
    var r := EditRatingInPlace(lib, id, caller, rating, review);
    if r.status == StatusOk {
      var b := lib.books[IdKey(id)];
      var i := FirstRatingBy(b.ratings, caller.value).value;
      var e := RatingEntry(caller.value, rating.value, StoredReview(review));
      SumRatingsUpdate(b.ratings, i, e);
      var rs' := b.ratings[i := e];
      assert OnePerUser(rs') by {
        forall p, q | 0 <= p < q < |rs'|
          ensures rs'[p].userId != rs'[q].userId
        {
          assert b.ratings[i].userId == caller.value;
        }
      }
    }
  }

  /** Adding keeps one entry per rater and the aggregates in agreement. */
  lemma AddRatingKeepsInvariant(lib: Library, id: string, caller: Option<string>,
                                rating: RatingInput, review: ReviewInput)
    requires LibraryInvariant(lib)
    ensures LibraryInvariant(AddRating(lib, id, caller, rating, review).state)
  {
    var r := AddRating(lib, id, caller, rating, review);
    if r.status == StatusOk {
      var b := lib.books[IdKey(id)];
      var b' := r.state.books[IdKey(id)];
      assert OnePerUser(b'.ratings) by {
        forall p, q | 0 <= p < q < |b'.ratings|
          ensures b'.ratings[p].userId != b'.ratings[q].userId
        {
          if q == |b.ratings| {
            assert !RatedBy(b.ratings[p], caller.value);
          }
        }
      }
    }
  }

  /** A valid first rating from a new rater on a savable document is
      accepted: exactly that entry is appended, and the document stays
      savable. */
  lemma AddRatingAccepts(lib: Library, id: string, caller: string, rating: real, review: ReviewInput)
    requires IsObjectId(id) && IdKey(id) in lib.books && ValidForSave(lib.books[IdKey(id)])
    requires caller != "" && !HasRated(lib.books[IdKey(id)].ratings, caller)
    requires RatingRequestValid(NumberRating(rating), review)
    ensures var r := AddRating(lib, id, Some(caller), NumberRating(rating), review);
            && r.status == StatusOk && IdKey(id) in r.state.books
            && ValidForSave(r.state.books[IdKey(id)])
            && r.state.books[IdKey(id)].ratings == lib.books[IdKey(id)].ratings + [RatingEntry(caller, rating, StoredReview(review))]
            && AggregatesAgree(r.state.books[IdKey(id)])
  {
    var b := lib.books[IdKey(id)];
    var rated := CalculateAverageRating(b.(ratings := b.ratings + [RatingEntry(caller, rating, StoredReview(review))]));
    assert forall k :: 0 <= k < |rated.ratings| ==> EntryValid(rated.ratings[k]);
  }

  /** A valid edit by a rater who has an entry on a savable document is
      accepted: the caller's entry is overwritten, the document stays
      savable and its aggregates agree with the new ratings. */
  lemma EditRatingInPlaceAccepts(lib: Library, id: string, caller: string, rating: real, review: ReviewInput)
    requires IsObjectId(id) && IdKey(id) in lib.books && ValidForSave(lib.books[IdKey(id)])
    requires caller != "" && HasRated(lib.books[IdKey(id)].ratings, caller)
    requires RatingRequestValid(NumberRating(rating), review)
    ensures var r := EditRatingInPlace(lib, id, Some(caller), NumberRating(rating), review);
            && r.status == StatusOk && IdKey(id) in r.state.books
            && ValidForSave(r.state.books[IdKey(id)])
            && |r.state.books[IdKey(id)].ratings| == |lib.books[IdKey(id)].ratings|
            && AggregatesAgree(r.state.books[IdKey(id)])
  {
    var b := lib.books[IdKey(id)];
    var i := FirstRatingBy(b.ratings, caller).value;
    var rs := b.ratings[i := RatingEntry(caller, rating, StoredReview(review))];
    assert forall k :: 0 <= k < |rs| ==> EntryValid(rs[k]);
  }

  /** A rater's own entry can always be taken back from a savable document. */
  lemma RemoveRatingAccepts(lib: Library, id: string, caller: string)
    requires IsObjectId(id) && IdKey(id) in lib.books && ValidForSave(lib.books[IdKey(id)])
    requires caller != "" && HasRated(lib.books[IdKey(id)].ratings, caller)
    ensures RemoveRating(lib, Some(id), Some(caller)).status == StatusOk
  {
    var b := lib.books[IdKey(id)];
    var i := FirstRatingBy(b.ratings, caller).value;
    var rs := RemoveAt(b.ratings, i);
    forall k | 0 <= k < |rs|
      ensures EntryValid(rs[k])
    {
      var k' := if k < i then k else k + 1;
      assert rs[k] == b.ratings[k'];
    }
  }

  /** A valid rating from a new rater on a savable document whose ratings
      are `rs` leaves the ratings `rs + [entry]` with their mean as the
      average. */
  lemma AddRatingStep(lib: Library, id: string, caller: string, rating: real, rs: seq<RatingEntry>)
    requires IsObjectId(id) && IdKey(id) in lib.books && ValidForSave(lib.books[IdKey(id)])
    requires lib.books[IdKey(id)].ratings == rs && caller != "" && !HasRated(rs, caller)
    requires 1.0 <= rating <= 5.0
    ensures var r := AddRating(lib, id, Some(caller), NumberRating(rating), NoReview);
            && r.status == StatusOk && IdKey(id) in r.state.books && ValidForSave(r.state.books[IdKey(id)])
            && r.state.books[IdKey(id)].ratings == rs + [RatingEntry(caller, rating, DefaultReview)]
            && r.state.books[IdKey(id)].averageRating == Mean(rs + [RatingEntry(caller, rating, DefaultReview)])
            && r.state.books[IdKey(id)].totalRatings == SumRatings(rs + [RatingEntry(caller, rating, DefaultReview)])
            && r.state.books[IdKey(id)].totalRatings == SumRatings(rs) + rating
            && r.state.books[IdKey(id)].totalCount == |rs| + 1
  {
    AddRatingAccepts(lib, id, caller, rating, NoReview);
    SumRatingsAppend(rs, RatingEntry(caller, rating, DefaultReview));
  }

  /** Whatever the document held before, a stored rating leaves an average
      within the schema's rating bounds, because `save()` only lets in
      documents whose every entry lies within them. */
  lemma AddRatingAverageWithinBounds(lib: Library, id: string, caller: Option<string>,
                                     rating: RatingInput, review: ReviewInput)
    ensures var r := AddRating(lib, id, caller, rating, review);
            r.status == StatusOk ==> MinRating <= r.state.books[IdKey(id)].averageRating <= MaxRating
  {
    var r := AddRating(lib, id, caller, rating, review);
    if r.status == StatusOk {
      var rs := r.state.books[IdKey(id)].ratings;
      assert forall k :: 0 <= k < |rs| ==> EntryValid(rs[k]);
      MeanWithinBounds(rs, MinRating, MaxRating);
    }
  }

  /** The first half of the worked example: ratings 4 and then 2 give
      averages 4 and then 3. */
  lemma RatingScenarioAdd(lib: Library, id: string, a: string, c: string)
    requires IsObjectId(id) && IdKey(id) in lib.books
    requires ValidForSave(lib.books[IdKey(id)]) && lib.books[IdKey(id)].ratings == []
    requires a != "" && c != "" && a != c
    ensures var r1 := AddRating(lib, id, Some(a), NumberRating(4.0), NoReview);
            var r2 := AddRating(r1.state, id, Some(c), NumberRating(2.0), NoReview);
            && r1.status == StatusOk && r1.state.books[IdKey(id)].averageRating == 4.0
            && r1.state.books[IdKey(id)].totalCount == 1
            && r2.status == StatusOk && IdKey(id) in r2.state.books && ValidForSave(r2.state.books[IdKey(id)])
            && r2.state.books[IdKey(id)].ratings == [RatingEntry(a, 4.0, DefaultReview), RatingEntry(c, 2.0, DefaultReview)]
            && r2.state.books[IdKey(id)].averageRating == 3.0
            && r2.state.books[IdKey(id)].totalRatings == 6.0
            && r2.state.books[IdKey(id)].totalCount == 2
  {
    var ea := RatingEntry(a, 4.0, DefaultReview);
    var ec := RatingEntry(c, 2.0, DefaultReview);
    SumRatingsOneTwo(ea, ec);
    assert Mean([ea]) == 4.0 / 1.0;
    assert Mean([ea, ec]) == 6.0 / 2.0;
    assert [] + [ea] == [ea] && [ea] + [ec] == [ea, ec];
    AddRatingStep(lib, id, a, 4.0, []);
    var lib1 := AddRating(lib, id, Some(a), NumberRating(4.0), NoReview).state;
    assert !HasRated([ea], c) by { assert !RatedBy(ea, c); }
    AddRatingStep(lib1, id, c, 2.0, [ea]);
  }

  /** The second half: taking the 4 out of ratings 4 and 2 leaves an
      average of 2 over one entry. */
  lemma RatingScenarioRemove(lib: Library, id: string, a: string, c: string)
    requires IsObjectId(id) && IdKey(id) in lib.books && ValidForSave(lib.books[IdKey(id)])
    requires a != ""
    requires lib.books[IdKey(id)].ratings == [RatingEntry(a, 4.0, DefaultReview), RatingEntry(c, 2.0, DefaultReview)]
    requires lib.books[IdKey(id)].totalRatings == 6.0 && lib.books[IdKey(id)].totalCount == 2
    ensures var r := RemoveRating(lib, Some(id), Some(a));
            && r.status == StatusOk && r.state.books[IdKey(id)].averageRating == 2.0
            && r.state.books[IdKey(id)].totalCount == 1
  {
    assert RatedBy(lib.books[IdKey(id)].ratings[0], a);
    RemoveRatingAccepts(lib, id, a);
    assert FirstRatingBy(lib.books[IdKey(id)].ratings, a) == Some(0);
  }

  /** The worked example of the rating aggregator: ratings 4 and 2 give an
      average of 3 over two entries; taking the 4 out leaves 2 over one. */
  lemma RatingScenario(lib: Library, id: string, a: string, c: string)
    requires IsObjectId(id) && IdKey(id) in lib.books
    requires ValidForSave(lib.books[IdKey(id)]) && lib.books[IdKey(id)].ratings == []
    requires a != "" && c != "" && a != c
    ensures var r1 := AddRating(lib, id, Some(a), NumberRating(4.0), NoReview);
            var r2 := AddRating(r1.state, id, Some(c), NumberRating(2.0), NoReview);
            var r3 := RemoveRating(r2.state, Some(id), Some(a));
            && r1.status == StatusOk && r1.state.books[IdKey(id)].averageRating == 4.0
            && r1.state.books[IdKey(id)].totalCount == 1
            && r2.status == StatusOk && r2.state.books[IdKey(id)].averageRating == 3.0
            && r2.state.books[IdKey(id)].totalCount == 2
            && r3.status == StatusOk && r3.state.books[IdKey(id)].averageRating == 2.0
            && r3.state.books[IdKey(id)].totalCount == 1
  {
    RatingScenarioAdd(lib, id, a, c);
    var lib1 := AddRating(lib, id, Some(a), NumberRating(4.0), NoReview).state;
    RatingScenarioRemove(AddRating(lib1, id, Some(c), NumberRating(2.0), NoReview).state, id, a, c);
  }
}

=== FILE: audiobook_model.dfy ===
/** The audiobook document (src/models/audiobookModel.js): its fields and
    defaults, the validation Mongoose runs on `save()`, and the
    `calculateAverageRating` method that derives the three rating aggregates
    from the embedded `ratings` array. */
module AudiobookModel {
  import opened Common

  /** One element of `ratings`. `userId` is declared as a String in the
      schema (an ObjectId is cast to its hex text when pushed); the empty
      string stands for a missing id. `rating` is a JavaScript number, so it
      is a `real` here (2.5 is a legal rating); floating-point rounding is
      not modelled. */
  datatype RatingEntry = RatingEntry(userId: string, rating: real, review: string)

  /** An audiobook document. `uploadedAt` is a timestamp in milliseconds. */
  datatype Audiobook = Audiobook(
    authorId: string,
    authorName: string,
    title: string,
    description: string,
    genre: string,
    categories: seq<string>,
    subcategories: seq<string>,
    coverImage: string,
    audioFile: string,
    uploadedAt: int,
    ratings: seq<RatingEntry>,
    totalRatings: real,
    totalCount: int,
    averageRating: real)

  /** Review stored when the request gives none (schema default). */
  const DefaultReview: string := ""

  /** Bounds the schema places on a rating value. */
  const MinRating: real := 0.0
  const MaxRating: real := 5.0

  /** Sum of the rating values, folded from the left as `reduce` does. */
  function SumRatings(rs: seq<RatingEntry>): real
  {
    if |rs| == 0 then 0.0 else SumRatings(rs[..|rs| - 1]) + rs[|rs| - 1].rating
  }

  /** Arithmetic mean of the rating values; 0 for no ratings. */
  function Mean(rs: seq<RatingEntry>): real
  {
    if |rs| == 0 then 0.0 else SumRatings(rs) / (|rs| as real)
  }

  /** The derived fields describe the `ratings` array exactly. */
  predicate AggregatesAgree(b: Audiobook)
  {
    && b.totalCount == |b.ratings|
    && b.totalRatings == SumRatings(b.ratings)
    && b.averageRating == Mean(b.ratings)
  }

  /** `a` and `b` differ at most in the three derived fields. */
  predicate SameExceptAggregates(a: Audiobook, b: Audiobook)
  {
    a.(totalRatings := b.totalRatings, totalCount := b.totalCount, averageRating := b.averageRating) == b
  }

  /** At most one entry per rater. */
  predicate OnePerUser(rs: seq<RatingEntry>)
  {
    forall i, j :: 0 <= i < j < |rs| ==> rs[i].userId != rs[j].userId
  }

  /** The invariant the rating handlers are meant to keep. */
  predicate RatingsInvariant(b: Audiobook)
  {
    AggregatesAgree(b) && OnePerUser(b.ratings)
  }

  /** A rating entry passes the schema's validators. */
  predicate EntryValid(e: RatingEntry)
  {
    e.userId != "" && MinRating <= e.rating <= MaxRating
  }

  /** What `save()` validates: the required paths are non-empty strings
      (Mongoose's `required` rejects ""), every category is present, and
      every rating entry is valid. */
  predicate ValidForSave(b: Audiobook)
  {
    && b.authorId != ""
    && b.authorName != ""
    && b.title != ""
    && b.coverImage != ""
    && b.audioFile != ""
    && (forall k :: 0 <= k < |b.categories| ==> b.categories[k] != "")
    && (forall k :: 0 <= k < |b.ratings| ==> EntryValid(b.ratings[k]))
  }

  /** A document as `new Audiobook({...})` builds it: no ratings and the
      aggregate defaults. */
  function NewAudiobook(authorId: string, authorName: string, title: string, description: string,
                        genre: string, coverImage: string, audioFile: string, uploadedAt: int): (b: Audiobook)
    ensures b.ratings == [] && b.totalRatings == 0.0 && b.totalCount == 0 && b.averageRating == 0.0
    ensures RatingsInvariant(b)
    ensures b.authorId == authorId && b.title == title && b.coverImage == coverImage && b.audioFile == audioFile
  {
    Audiobook(authorId, authorName, title, description, genre, [], [], coverImage, audioFile,
              uploadedAt, [], 0.0, 0, 0.0)
  }

  /** `calculateAverageRating`: reads only `ratings`, writes only the three
      derived fields. */
  function CalculateAverageRating(b: Audiobook): (r: Audiobook)
    ensures SameExceptAggregates(b, r)
    ensures AggregatesAgree(r)
    ensures |b.ratings| == 0 ==> r.averageRating == 0.0 && r.totalCount == 0 && r.totalRatings == 0.0
  {
    if |b.ratings| == 0 then
      b.(averageRating := 0.0, totalCount := 0, totalRatings := 0.0)
    else
      var total := SumRatings(b.ratings);
      b.(averageRating := total / (|b.ratings| as real), totalCount := |b.ratings|, totalRatings := total)
  }

  /** The left-to-right `reduce` of line 91, as a loop. */
  method ReduceRatings(rs: seq<RatingEntry>) returns (total: real)
    ensures total == SumRatings(rs)
  {
    total := 0.0;
    var i := 0;
    while i < |rs|
      invariant 0 <= i <= |rs|
      invariant total == SumRatings(rs[..i])
    {
      assert rs[..i + 1][..i] == rs[..i];
      total := total + rs[i].rating;
      i := i + 1;
    }
    assert rs[..|rs|] == rs;
  }

  /** On a non-empty array the aggregator yields the count, the sum and
      their quotient; on an empty one all three are zero. */
  lemma CalculateAverageRatingFields(b: Audiobook)
    ensures |b.ratings| > 0 ==> CalculateAverageRating(b).totalCount == |b.ratings|
    ensures |b.ratings| > 0 ==> CalculateAverageRating(b).totalRatings == SumRatings(b.ratings)
    ensures |b.ratings| > 0 ==>
      CalculateAverageRating(b).averageRating
        == CalculateAverageRating(b).totalRatings / (CalculateAverageRating(b).totalCount as real)
    ensures |b.ratings| == 0 ==>
      var r := CalculateAverageRating(b); r.averageRating == 0.0 && r.totalCount == 0 && r.totalRatings == 0.0
  {
  }

  /** The aggregator's result is the only document that agrees with the
      ratings and differs from the input at most in the derived fields;
      hence running it twice is the same as running it once. */
  lemma CalculateAverageRatingUnique(b: Audiobook, r: Audiobook)
    requires SameExceptAggregates(b, r) && AggregatesAgree(r)
    ensures r == CalculateAverageRating(b)
    ensures CalculateAverageRating(CalculateAverageRating(b)) == CalculateAverageRating(b)
  {
  }

  /** Appending an entry adds its value to the sum. */
  lemma SumRatingsAppend(rs: seq<RatingEntry>, e: RatingEntry)
    ensures SumRatings(rs + [e]) == SumRatings(rs) + e.rating
  {
    assert (rs + [e])[..|rs + [e]| - 1] == rs;
  }

  /** The sums of one and of two entries. */
  lemma SumRatingsOneTwo(e1: RatingEntry, e2: RatingEntry)
    ensures SumRatings([e1]) == e1.rating
    ensures SumRatings([e1, e2]) == e1.rating + e2.rating
  {
    assert [e1][..0] == [];
    assert [e1, e2][..1] == [e1];
  }

  /** Splicing an entry out subtracts its value from the sum. */
  lemma {:induction false} SumRatingsRemoveAt(rs: seq<RatingEntry>, i: nat)
    requires i < |rs|
    ensures SumRatings(RemoveAt(rs, i)) == SumRatings(rs) - rs[i].rating
    decreases |rs|
  {
    var n := |rs| - 1;
    var r := RemoveAt(rs, i);
    if i == n {
      assert r == rs[..n];
    } else {
      var init := rs[..n];
      SumRatingsRemoveAt(init, i);
      assert init[i] == rs[i];
      assert r[..|r| - 1] == RemoveAt(init, i);
      assert r[|r| - 1] == rs[n];
      assert SumRatings(r) == SumRatings(RemoveAt(init, i)) + rs[n].rating;
      assert SumRatings(rs) == SumRatings(init) + rs[n].rating;
    }
  }

  /** Splicing an entry out keeps one entry per rater. */
  lemma OnePerUserRemoveAt(rs: seq<RatingEntry>, i: nat)
    requires i < |rs| && OnePerUser(rs)
    ensures OnePerUser(RemoveAt(rs, i))
  {
    var r := RemoveAt(rs, i);
    forall p, q | 0 <= p < q < |r|
      ensures r[p].userId != r[q].userId
    {
      var p' := if p < i then p else p + 1;
      var q' := if q < i then q else q + 1;
      assert r[p] == rs[p'] && r[q] == rs[q'];
    }
  }

  /** Replacing one entry changes the sum by the difference of the values. */
  lemma {:induction false} SumRatingsUpdate(rs: seq<RatingEntry>, i: nat, e: RatingEntry)
    requires i < |rs|
    ensures SumRatings(rs[i := e]) == SumRatings(rs) - rs[i].rating + e.rating
    decreases |rs|
  {
    var n := |rs| - 1;
    if i == n {
      assert rs[i := e][..n] == rs[..n];
    } else {
      SumRatingsUpdate(rs[..n], i, e);
      assert rs[i := e][..n] == rs[..n][i := e];
    }
  }

  /** With every value within bounds, so is the sum scaled by the count. */
  lemma {:induction false} SumRatingsBounded(rs: seq<RatingEntry>, lo: real, hi: real)
    requires forall k :: 0 <= k < |rs| ==> lo <= rs[k].rating <= hi
    ensures lo * (|rs| as real) <= SumRatings(rs) <= hi * (|rs| as real)
    decreases |rs|
  {
    if |rs| > 0 {
      SumRatingsBounded(rs[..|rs| - 1], lo, hi);
      assert rs[|rs| - 1].rating <= hi;
    }
  }

  /** The average of schema-valid ratings lies within the schema's bounds,
      and within [1, 5] when every entry came through `addRating`. */
  lemma MeanWithinBounds(rs: seq<RatingEntry>, lo: real, hi: real)
    requires |rs| > 0
    requires forall k :: 0 <= k < |rs| ==> lo <= rs[k].rating <= hi
    ensures lo <= Mean(rs) <= hi
  {
    SumRatingsBounded(rs, lo, hi);
    var n := |rs| as real;
    assert SumRatings(rs) / n * n == SumRatings(rs);
  }
}

=== FILE: blob_store.dfy ===
/** The GridFS bucket the audiobook handlers write cover images and audio
    files into, seen as an ordered collection of whole files. Chunking,
    streams and the header-last write protocol are below this level: a write
    either adds a complete file or adds nothing. File names are not unique;
    the handlers read the most recent revision of a name
    (`openDownloadStreamByName`) but delete the first match of
    `find({filename}).toArray()`, which is the oldest. */
module BlobStore {
  import opened Common

  datatype Blob = Blob(filename: string, contentType: string, data: seq<bv8>)

  /** Files in insertion (natural) order. */
  type Bucket = seq<Blob>

  /** `openUploadStream(name).end(buffer)` that finishes: a read of the
      name now yields the bytes written and one more file carries the name
      (`PutKeepsOtherNames` states that other names are unaffected). */
  function Put(bk: Bucket, name: string, contentType: string, data: seq<bv8>): (r: Bucket)
    ensures Download(r, name) == Some(data)
    ensures CountNamed(r, name) == CountNamed(bk, name) + 1
  {
    var r := bk + [Blob(name, contentType, data)];
    assert r[..|r| - 1] == bk;
    r
  }

  /** A write under one name changes neither what another name reads nor
      how many files carry it. */
  lemma PutKeepsOtherNames(bk: Bucket, name: string, contentType: string, data: seq<bv8>)
    ensures forall other :: other != name ==> Download(Put(bk, name, contentType, data), other) == Download(bk, other)
    ensures forall other :: other != name ==> CountNamed(Put(bk, name, contentType, data), other) == CountNamed(bk, other)
  {
    var r := Put(bk, name, contentType, data);
    assert r[..|r| - 1] == bk;
  }

  /** Position of the first file with the given name. */
  function FirstNamed(bk: Bucket, name: string): (r: Option<nat>)
    ensures r.Some? ==> r.value < |bk| && bk[r.value].filename == name
    ensures r.Some? ==> forall k :: 0 <= k < r.value ==> bk[k].filename != name
    ensures r.None? ==> forall k :: 0 <= k < |bk| ==> bk[k].filename != name
  {
    if |bk| == 0 then None
    else if bk[0].filename == name then Some(0)
    else
      match FirstNamed(bk[1..], name)
      case None => None
      case Some(k) => Some(k + 1)
  }

  /** Position of the most recent file with the given name. */
  function LatestNamed(bk: Bucket, name: string): (r: Option<nat>)
    ensures r.Some? ==> r.value < |bk| && bk[r.value].filename == name
    ensures r.Some? ==> forall k :: r.value < k < |bk| ==> bk[k].filename != name
    ensures r.None? ==> forall k :: 0 <= k < |bk| ==> bk[k].filename != name
  {
    if |bk| == 0 then None
    else if bk[|bk| - 1].filename == name then Some(|bk| - 1)
    else LatestNamed(bk[..|bk| - 1], name)
  }

  /** Contents a download by name streams out: nothing when no file has
      the name, otherwise the contents of the most recent file of that name. */
  function Download(bk: Bucket, name: string): (r: Option<seq<bv8>>)
    ensures r.None? <==> forall k :: 0 <= k < |bk| ==> bk[k].filename != name
    ensures r.Some? ==> exists k :: && 0 <= k < |bk| && bk[k].filename == name && bk[k].data == r.value
                                    && forall j :: k < j < |bk| ==> bk[j].filename != name
  {
    match LatestNamed(bk, name)
    case None => None
    case Some(k) => Some(bk[k].data)
  }

  /** `find({filename: name}).toArray()` then `delete(files[0]._id)` when
      there is a match; nothing when there is none. */
  function DeleteFirstNamed(bk: Bucket, name: string): (r: Bucket)
    ensures |r| <= |bk|
    ensures CountNamed(bk, name) > 0 ==> CountNamed(r, name) == CountNamed(bk, name) - 1
    ensures CountNamed(bk, name) == 0 ==> r == bk
    ensures forall other :: other != name ==> CountNamed(r, other) == CountNamed(bk, other)
    ensures forall other :: other != name ==> Download(r, other) == Download(bk, other)
  {
    match FirstNamed(bk, name)
    case None =>
      CountNamedZero(bk, name);
      bk
    case Some(k) =>
      CountNamedRemoveAtAll(bk, k);
      DownloadRemoveAtAll(bk, k);
      RemoveAt(bk, k)
  }

  /** Number of files stored under a name. */
  function CountNamed(bk: Bucket, name: string): nat
  {
    if |bk| == 0 then 0
    else CountNamed(bk[..|bk| - 1], name) + (if bk[|bk| - 1].filename == name then 1 else 0)
  }

  /** Removing the file at position `i` lowers the count of its name by one
      and leaves every other name's count alone. */
  lemma {:induction false} CountNamedRemoveAt(bk: Bucket, i: nat, name: string)
    requires i < |bk|
    ensures CountNamed(RemoveAt(bk, i), name)
              == CountNamed(bk, name) - (if bk[i].filename == name then 1 else 0)
    decreases |bk|
  {
    var n := |bk| - 1;
    var r := RemoveAt(bk, i);
    if i == n {
      assert r == bk[..n];
    } else {
      var init := bk[..n];
      CountNamedRemoveAt(init, i, name);
      assert init[i] == bk[i];
      assert r[..|r| - 1] == RemoveAt(init, i);
      assert r[|r| - 1] == bk[n];
      var last := if bk[n].filename == name then 1 else 0;
      assert CountNamed(r, name) == CountNamed(RemoveAt(init, i), name) + last;
      assert CountNamed(bk, name) == CountNamed(init, name) + last;
    }
  }

  /** `CountNamedRemoveAt` for every name at once. */
  lemma CountNamedRemoveAtAll(bk: Bucket, i: nat)
    requires i < |bk|
    ensures forall name :: CountNamed(RemoveAt(bk, i), name)
                             == CountNamed(bk, name) - (if bk[i].filename == name then 1 else 0)
  {
    forall name
      ensures CountNamed(RemoveAt(bk, i), name) == CountNamed(bk, name) - (if bk[i].filename == name then 1 else 0)
    {
      CountNamedRemoveAt(bk, i, name);
    }
  }

  /** Removing a file of another name leaves what a name reads unchanged:
      the most recent file of that name is still the most recent one. */
  lemma DownloadRemoveAt(bk: Bucket, i: nat, name: string)
    requires i < |bk| && bk[i].filename != name
    ensures Download(RemoveAt(bk, i), name) == Download(bk, name)
  {
    var r := RemoveAt(bk, i);
    match LatestNamed(bk, name)
    case None =>
      forall k | 0 <= k < |r|
        ensures r[k].filename != name
      {
        var k' := if k < i then k else k + 1;
        assert r[k] == bk[k'];
      }
    case Some(j) =>
      var j' := if j < i then j else j - 1;
      assert r[j'] == bk[j];
      forall k | j' < k < |r|
        ensures r[k].filename != name
      {
        var k' := if k < i then k else k + 1;
        assert r[k] == bk[k'];
      }
  }

  lemma DownloadRemoveAtAll(bk: Bucket, i: nat)
    requires i < |bk|
    ensures forall name :: name != bk[i].filename ==> Download(RemoveAt(bk, i), name) == Download(bk, name)
  {
    forall name | name != bk[i].filename
      ensures Download(RemoveAt(bk, i), name) == Download(bk, name)
    {
      DownloadRemoveAt(bk, i, name);
    }
  }

  /** A name is counted exactly when some file carries it. */
  lemma {:induction false} CountNamedZero(bk: Bucket, name: string)
    ensures CountNamed(bk, name) == 0 <==> forall k :: 0 <= k < |bk| ==> bk[k].filename != name
    decreases |bk|
  {
    if |bk| > 0 {
      CountNamedZero(bk[..|bk| - 1], name);
    }
  }
}

=== FILE: common.dfy ===
/** Shared vocabulary of the model: optional values, HTTP-style replies and
    small sequence helpers used by both controllers. */
module Common {

  /** A value that may be absent (`undefined`/`null` in the handlers). */
  datatype Option<+T> = None | Some(value: T) {
    function GetOr(default: T): T {
      match this
      case Some(v) => v
      case None => default
    }
  }

  /** What a handler answers: the HTTP status it sends and the state of the
      stores afterwards. Errors forwarded with `next(error)` and no
      `statusCode` end as a 500. */
  datatype Reply<S> = Reply(status: int, state: S)

  const StatusOk := 200
  const StatusCreated := 201
  const StatusBadRequest := 400
  const StatusUnauthorized := 401
  const StatusForbidden := 403
  const StatusNotFound := 404
  const StatusConflict := 409
  const StatusServerError := 500

  /** `s.splice(i, 1)`: the sequence without its `i`-th element. */
  function RemoveAt<T>(s: seq<T>, i: nat): (r: seq<T>)
    requires i < |s|
    ensures |r| == |s| - 1
    ensures forall k :: 0 <= k < i ==> r[k] == s[k]
    ensures forall k :: i <= k < |r| ==> r[k] == s[k + 1]
  {
    s[..i] + s[i + 1..]
  }

  /** No element occurs twice. */
  predicate NoDuplicates<T(==)>(s: seq<T>)
  {
    forall i, j :: 0 <= i < j < |s| ==> s[i] != s[j]
  }

  /** `Array.prototype.indexOf`: the first position holding `x`. */
  function IndexOf<T(==)>(s: seq<T>, x: T): (r: Option<nat>)
    ensures r.Some? ==> r.value < |s| && s[r.value] == x
    ensures r.Some? ==> forall k :: 0 <= k < r.value ==> s[k] != x
    ensures r.None? <==> x !in s
  {
    if |s| == 0 then None
    else if s[0] == x then Some(0)
    else
      match IndexOf(s[1..], x)
      case None => None
      case Some(k) => Some(k + 1)
  }
}

=== FILE: user_controller.dfy ===
/** The account handlers of src/controllers/userController.js: registration,
    e-mail verification, the two password-reset paths, the profile update
    and the saved-stories list. The user collection is a sequence in natural
    order. The clock, the signed token, the random avatar pick, the mail
    delivery outcome and the password hash come in as parameters; `hash`
    stands for bcrypt and is never inspected. */
module UserController {
  import opened Common
  import opened UserModel

  /** Replace the document at position `i`. */
  function Store(users: seq<User>, i: nat, u: User): (r: seq<User>)
    requires i < |users|
    ensures |r| == |users| && r[i] == u
    ensures forall k :: 0 <= k < |users| && k != i ==> r[k] == users[k]
  {
    users[i := u]
  }

  // ---------------------------------------------------------------------
  // createUser
  // ---------------------------------------------------------------------

  /** The registration body; a field is "" when absent or empty. */
  datatype Registration = Registration(firstName: string, lastName: string, email: string, password: string)

  /** What the handler takes from outside the request: the id the new
      document gets, the index `Math.random` picks among the avatars, the
      signed verification token, the clock, and whether the verification
      mail went out. */
  datatype RegistrationEnv = RegistrationEnv(newId: string, avatarPick: nat, token: string,
                                             now: int, mailSent: bool)

  predicate RegistrationComplete(reg: Registration)
  {
    reg.firstName != "" && reg.lastName != "" && reg.email != "" && reg.password != ""
  }

  predicate EmailTaken(users: seq<User>, email: string)
  {
    exists k :: 0 <= k < |users| && users[k].email == email
  }

  /** `createUser`. */
  function CreateUser(users: seq<User>, reg: Registration, env: RegistrationEnv,
                      hash: string -> string): (r: Reply<seq<User>>)
    requires env.avatarPick < |AvatarImages|
    ensures !RegistrationComplete(reg) ==> r == Reply(StatusBadRequest, users)
    ensures RegistrationComplete(reg) && !MatchesEmailPattern(reg.email) ==> r == Reply(StatusBadRequest, users)
    ensures RegistrationComplete(reg) && MatchesEmailPattern(reg.email) && EmailTaken(users, reg.email) ==>
              r == Reply(StatusConflict, users)
    ensures r.status != StatusCreated ==> r.state == users
    ensures r.status == StatusCreated <==>
              RegistrationComplete(reg) && MatchesEmailPattern(reg.email)
              && !EmailTaken(users, reg.email) && env.mailSent
    ensures r.status == StatusCreated ==>
              && |r.state| == |users| + 1
              && r.state[..|users|] == users
              && var u := r.state[|users|];
                 && u.email == reg.email && u.firstName == reg.firstName && u.lastName == reg.lastName
                 && u.password == hash(reg.password)
                 && !u.verified
                 && u.verifyToken == Some(env.token)
                 && u.verifyTokenExpires == Some(env.now + VerifyTokenLifetime)
                 && u.avatar in AvatarImages
    ensures EmailsUnique(users) ==> EmailsUnique(r.state)
  {
    if !RegistrationComplete(reg) then Reply(StatusBadRequest, users)
    else if !MatchesEmailPattern(reg.email) then Reply(StatusBadRequest, users)
    else if FindOne(users, ByEmail(reg.email)).Some? then Reply(StatusConflict, users)
    else if !env.mailSent then Reply(StatusServerError, users)
    else
      var u := NewUser(env.newId, AvatarImages[env.avatarPick], reg.firstName, reg.lastName, reg.email,
                       hash(reg.password), env.token, env.now + VerifyTokenLifetime);
      Reply(StatusCreated, users + [u])
  }

  // ---------------------------------------------------------------------
  // verifyEmail
  // ---------------------------------------------------------------------

  /** The verification token has run out: its expiry is not after `now`. */
  predicate VerifyTokenExpired(u: User, now: int)
  {
    u.verifyTokenExpires.Some? && u.verifyTokenExpires.value <= now
  }

  /** `verifyEmail`; the status is that of the JSON reply (the rendered
      pages are sent with the default 200). */
  function VerifyEmail(users: seq<User>, token: string, now: int): (r: Reply<seq<User>>)
    ensures FindOne(users, ByVerifyToken(token)).None? ==> r == Reply(StatusBadRequest, users)
    ensures r.status == StatusOk <==>
              FindOne(users, ByVerifyToken(token)).Some?
              && !VerifyTokenExpired(users[FindOne(users, ByVerifyToken(token)).value], now)
    ensures r.status != StatusOk ==> r.status == StatusBadRequest
    ensures r.status == StatusOk ==>
              && FindOne(users, ByVerifyToken(token)).Some?
              && var i := FindOne(users, ByVerifyToken(token)).value;
                 && |r.state| == |users|
                 && (forall k :: 0 <= k < |users| && k != i ==> r.state[k] == users[k])
                 && r.state[i].verified
                 && (!users[i].verified ==>
                       r.state[i] == users[i].(verified := true, verifyToken := None, verifyTokenExpires := None))
                 && (users[i].verified ==> r.state == users)
    ensures r.status != StatusOk && FindOne(users, ByVerifyToken(token)).Some? ==>
              var i := FindOne(users, ByVerifyToken(token)).value;
              r.state == (if users[i].verified then users else RemoveAt(users, i))
  {
    match FindOne(users, ByVerifyToken(token))
    case None => Reply(StatusBadRequest, users)
    case Some(i) =>
      var u := users[i];
      if VerifyTokenExpired(u, now) then
        // An unverified account whose link has run out is deleted.
        if !u.verified then Reply(StatusBadRequest, RemoveAt(users, i)) else Reply(StatusBadRequest, users)
      else if u.verified then Reply(StatusOk, users)
      else Reply(StatusOk, Store(users, i, u.(verified := true, verifyToken := None, verifyTokenExpires := None)))
  }

  /** Dropping one account keeps e-mails unique. */
  lemma RemoveAtKeepsEmailsUnique(users: seq<User>, i: nat)
    requires i < |users| && EmailsUnique(users)
    ensures EmailsUnique(RemoveAt(users, i))
  {
    var r := RemoveAt(users, i);
    forall p, q | 0 <= p < q < |r|
      ensures r[p].email != r[q].email
    {
      var p' := if p < i then p else p + 1;
      var q' := if q < i then q else q + 1;
      assert r[p] == users[p'] && r[q] == users[q'];
    }
  }

  /** Verification never lets two accounts share an address. */
  lemma VerifyEmailKeepsEmailsUnique(users: seq<User>, token: string, now: int)
    requires EmailsUnique(users)
    ensures EmailsUnique(VerifyEmail(users, token, now).state)
  {
    match FindOne(users, ByVerifyToken(token))
    case None =>
    case Some(i) =>
      if VerifyTokenExpired(users[i], now) && !users[i].verified {
        RemoveAtKeepsEmailsUnique(users, i);
      } else if !users[i].verified {
        StoreKeepsEmailsUnique(users, i, users[i].(verified := true, verifyToken := None, verifyTokenExpires := None));
      }
  }

  /** Verification consumes the token: when no other account holds it, the
      same link fails the second time, at any later time. */
  lemma VerifyEmailConsumesToken(users: seq<User>, token: string, now: int, later: int)
    requires FindOne(users, ByVerifyToken(token)).Some?
    requires forall k :: 0 <= k < |users| && users[k].verifyToken == Some(token) ==>
               k == FindOne(users, ByVerifyToken(token)).value
    requires !users[FindOne(users, ByVerifyToken(token)).value].verified
    ensures VerifyEmail(users, token, now).status == StatusOk ==>
              VerifyEmail(VerifyEmail(users, token, now).state, token, later)
                == Reply(StatusBadRequest, VerifyEmail(users, token, now).state)
  {
    var r := VerifyEmail(users, token, now);
    if r.status == StatusOk {
      assert forall k :: 0 <= k < |r.state| ==> !Matches(r.state[k], ByVerifyToken(token));
    }
  }

  // ---------------------------------------------------------------------
  // resetPassword and resetPasswordFromMobile
  // ---------------------------------------------------------------------

  /** The account after a successful reset: new hash, reset link spent. */
  function WithNewPassword(u: User, passwordHash: string): User
  {
    u.(password := passwordHash, resetToken := None, resetExpires := None)
  }

  /** `resetPassword`. `claim` is what `jwt.verify` yields: `None` when it
      throws (the error has no status and ends as a 500), otherwise the
      token's optional `userId` claim. */
  function ResetPassword(users: seq<User>, token: string, password: string,
                         claim: Option<Option<string>>, now: int, hash: string -> string): (r: Reply<seq<User>>)
    ensures token == "" || password == "" ==> r == Reply(StatusBadRequest, users)
    ensures r.status != StatusOk ==> r.state == users
    ensures r.status == StatusOk <==>
              && token != "" && password != "" && claim.Some? && claim.value.Some?
              && FindOne(users, ByResetToken(claim.value.value, token, now)).Some?
    ensures r.status == StatusOk ==>
              && claim.Some? && claim.value.Some?
              && FindOne(users, ByResetToken(claim.value.value, token, now)).Some?
              && var i := FindOne(users, ByResetToken(claim.value.value, token, now)).value;
                 && users[i].id == claim.value.value
                 && users[i].resetToken == Some(token)
                 && users[i].resetExpires.Some? && users[i].resetExpires.value > now
                 && r.state == Store(users, i, WithNewPassword(users[i], hash(password)))
  {
    if token == "" then Reply(StatusBadRequest, users)
    else if password == "" then Reply(StatusBadRequest, users)
    else if claim.None? then Reply(StatusServerError, users)
    else if claim.value.None? then Reply(StatusBadRequest, users)
    else
      match FindOne(users, ByResetToken(claim.value.value, token, now))
      case None => Reply(StatusBadRequest, users)
      case Some(i) => Reply(StatusOk, Store(users, i, WithNewPassword(users[i], hash(password))))
  }

  /** `resetPasswordFromMobile`: the same with a mailed code instead of a
      signed link, matched against any account. */
  function ResetPasswordFromMobile(users: seq<User>, code: string, password: string, now: int,
                                   hash: string -> string): (r: Reply<seq<User>>)
    ensures code == "" || password == "" ==> r == Reply(StatusBadRequest, users)
    ensures r.status != StatusOk ==> r == Reply(StatusBadRequest, users)
    ensures r.status == StatusOk <==>
              code != "" && password != "" && FindOne(users, ByResetCode(code, now)).Some?
    ensures r.status == StatusOk ==>
              && FindOne(users, ByResetCode(code, now)).Some?
              && var i := FindOne(users, ByResetCode(code, now)).value;
                 && users[i].resetCode == Some(code)
                 && users[i].resetCodeExpires.Some? && users[i].resetCodeExpires.value > now
                 && r.state == Store(users, i, users[i].(password := hash(password), resetCode := None,
                                                         resetCodeExpires := None))
  {
    if code == "" then Reply(StatusBadRequest, users)
    else if password == "" then Reply(StatusBadRequest, users)
    else
      match FindOne(users, ByResetCode(code, now))
      case None => Reply(StatusBadRequest, users)
      case Some(i) =>
        var u := users[i];
        Reply(StatusOk, Store(users, i, u.(password := hash(password), resetCode := None, resetCodeExpires := None)))
  }

  /** At most one account holds the given reset token. */
  predicate ResetTokenHeldOnce(users: seq<User>, token: string)
  {
    forall p, q :: 0 <= p < q < |users| && users[p].resetToken == Some(token) ==> users[q].resetToken != Some(token)
  }

  /** A reset link works once: when no other account holds the same token,
      the link fails after it has been used, at any later time. */
  lemma ResetPasswordSpendsLink(users: seq<User>, token: string, password: string, userId: string,
                                now: int, later: int, hash: string -> string)
    requires ResetTokenHeldOnce(users, token)
    ensures var r := ResetPassword(users, token, password, Some(Some(userId)), now, hash);
            r.status == StatusOk ==>
              ResetPassword(r.state, token, password, Some(Some(userId)), later, hash) == Reply(StatusBadRequest, r.state)
  {
    var r := ResetPassword(users, token, password, Some(Some(userId)), now, hash);
    if r.status == StatusOk {
      var i := FindOne(users, ByResetToken(userId, token, now)).value;
      forall k | 0 <= k < |r.state|
        ensures r.state[k].resetToken != Some(token)
      {
        if k < i {
          assert users[k].resetToken != Some(token);
        } else if k > i {
          assert users[k].resetToken != Some(token);
        }
      }
      assert forall k :: 0 <= k < |r.state| ==> !Matches(r.state[k], ByResetToken(userId, token, later));
    }
  }

  /** `resetPasswordFromMobile` as written. The user schema declares
      neither `reset_password_otp` nor `reset_password_otp_expires_in`, so
      the code `sendPasswordVerificationCode` assigns is never saved and no
      stored account holds one. What the query then does depends on
      Mongoose's `strictQuery` setting: when it is off, the filter on the
      undeclared paths goes to the database as is and matches nothing; when
      it is on, both conditions are stripped, the filter is empty, and the
      first account in natural order matches whatever the code. */
  function ResetPasswordFromMobileAsWritten(users: seq<User>, code: string, password: string,
                                            hash: string -> string, strictQuery: bool): (r: Reply<seq<User>>)
    ensures code == "" || password == "" ==> r == Reply(StatusBadRequest, users)
    ensures !strictQuery ==> r == Reply(StatusBadRequest, users)
    ensures r.status != StatusOk ==> r == Reply(StatusBadRequest, users)
    ensures r.status == StatusOk <==> strictQuery && code != "" && password != "" && |users| > 0
    ensures r.status == StatusOk ==>
              && |users| > 0
              && |r.state| == |users|
              && r.state[0] == users[0].(password := hash(password))
              && forall k :: 0 < k < |users| ==> r.state[k] == users[k]
  {
    if code == "" then Reply(StatusBadRequest, users)
    else if password == "" then Reply(StatusBadRequest, users)
    else if !strictQuery || |users| == 0 then Reply(StatusBadRequest, users)
    else Reply(StatusOk, Store(users, 0, users[0].(password := hash(password))))
  }

  /** The discrepancy: a live code held by an account is refused when
      `strictQuery` is off, and when it is on a code nobody holds still
      resets the first account's password. The intended handler does the
      opposite in both cases. */
  lemma ResetPasswordFromMobileAsWrittenMisfires(users: seq<User>, code: string, password: string,
                                                 now: int, hash: string -> string)
    requires code != "" && password != ""
    ensures FindOne(users, ByResetCode(code, now)).Some? ==>
              && ResetPasswordFromMobile(users, code, password, now, hash).status == StatusOk
              && ResetPasswordFromMobileAsWritten(users, code, password, hash, false) == Reply(StatusBadRequest, users)
    ensures FindOne(users, ByResetCode(code, now)).None? && |users| > 0 ==>
              && ResetPasswordFromMobile(users, code, password, now, hash) == Reply(StatusBadRequest, users)
              && ResetPasswordFromMobileAsWritten(users, code, password, hash, true).status == StatusOk
              && ResetPasswordFromMobileAsWritten(users, code, password, hash, true).state[0].password == hash(password)
  {
  }

  /** At most one account holds the given reset code. */
  predicate ResetCodeHeldOnce(users: seq<User>, code: string)
  {
    forall p, q :: 0 <= p < q < |users| && users[p].resetCode == Some(code) ==> users[q].resetCode != Some(code)
  }

  /** A mailed reset code works once: when no other account holds the same
      code, it fails after it has been used, at any later time. */
  lemma ResetPasswordFromMobileSpendsCode(users: seq<User>, code: string, password: string,
                                          now: int, later: int, hash: string -> string)
    requires ResetCodeHeldOnce(users, code)
    ensures var r := ResetPasswordFromMobile(users, code, password, now, hash);
            r.status == StatusOk ==>
              ResetPasswordFromMobile(r.state, code, password, later, hash) == Reply(StatusBadRequest, r.state)
  {
    var r := ResetPasswordFromMobile(users, code, password, now, hash);
    if r.status == StatusOk {
      var i := FindOne(users, ByResetCode(code, now)).value;
      forall k | 0 <= k < |r.state|
        ensures r.state[k].resetCode != Some(code)
      {
        if k < i {
          assert users[k].resetCode != Some(code);
        } else if k > i {
          assert users[k].resetCode != Some(code);
        }
      }
      assert forall k :: 0 <= k < |r.state| ==> !Matches(r.state[k], ByResetCode(code, later));
    }
  }

  // ---------------------------------------------------------------------
  // updateUserProfile
  // ---------------------------------------------------------------------

  /** `first_name || user.first_name`: an empty value keeps the stored one. */
  function OrKeep(given: string, stored: string): (r: string)
    ensures given != "" ==> r == given
    ensures given == "" ==> r == stored
  {
    if given != "" then given else stored
  }

  /** The profile fields after the merge: the names change only when at
      least one of them is given, and then each keeps its stored value when
      empty; the e-mail changes when a different one is given. Nothing
      else is touched. */
  function MergeProfile(u: User, firstName: string, lastName: string, email: string): (r: User)
    ensures r.firstName == OrKeep(firstName, u.firstName)
    ensures r.lastName == OrKeep(lastName, u.lastName)
    ensures r.email == OrKeep(email, u.email)
    ensures r.(firstName := u.firstName, lastName := u.lastName, email := u.email) == u
  {
    var named :=
      if firstName != "" || lastName != ""
      then u.(firstName := OrKeep(firstName, u.firstName), lastName := OrKeep(lastName, u.lastName))
      else u;
    if email != "" && email != u.email then named.(email := email) else named
  }

  /** `updateUserProfile` for the authenticated user `userId`. */
  function UpdateUserProfile(users: seq<User>, userId: string, firstName: string, lastName: string,
                             email: string): (r: Reply<seq<User>>)
    ensures FindOne(users, ById(userId)).None? ==> r == Reply(StatusNotFound, users)
    ensures r.status != StatusOk ==> r.state == users
    ensures r.status == StatusConflict <==>
              && FindOne(users, ById(userId)).Some?
              && email != "" && email != users[FindOne(users, ById(userId)).value].email
              && EmailTaken(users, email)
    ensures r.status == StatusOk <==>
              && FindOne(users, ById(userId)).Some?
              && !(email != "" && email != users[FindOne(users, ById(userId)).value].email
                   && EmailTaken(users, email))
    ensures r.status == StatusOk ==>
              && FindOne(users, ById(userId)).Some?
              && var i := FindOne(users, ById(userId)).value;
                 r.state == Store(users, i, MergeProfile(users[i], firstName, lastName, email))
  {
    match FindOne(users, ById(userId))
    case None => Reply(StatusNotFound, users)
    case Some(i) =>
      var u := users[i];
      if email != "" && email != u.email && FindOne(users, ByEmail(email)).Some? then
        Reply(StatusConflict, users)
      else
        Reply(StatusOk, Store(users, i, MergeProfile(u, firstName, lastName, email)))
  }

  /** Changing one account keeps e-mails unique when its new address is its
      old one or is held by no account. */
  lemma StoreKeepsEmailsUnique(users: seq<User>, i: nat, u: User)
    requires i < |users| && EmailsUnique(users)
    requires u.email == users[i].email || !EmailTaken(users, u.email)
    ensures EmailsUnique(Store(users, i, u))
  {
    var r := Store(users, i, u);
    forall p, q | 0 <= p < q < |r|
      ensures r[p].email != r[q].email
    {
      if p != i && q != i {
        assert r[p] == users[p] && r[q] == users[q];
      } else if p == i {
        assert r[q] == users[q];
      } else {
        assert r[p] == users[p];
      }
    }
  }

  /** A profile update never lets two accounts share an address. */
  lemma UpdateUserProfileKeepsEmailsUnique(users: seq<User>, userId: string, firstName: string,
                                           lastName: string, email: string)
    requires EmailsUnique(users)
    ensures EmailsUnique(UpdateUserProfile(users, userId, firstName, lastName, email).state)
  {
    var r := UpdateUserProfile(users, userId, firstName, lastName, email);
    if r.status == StatusOk {
      var i := FindOne(users, ById(userId)).value;
      StoreKeepsEmailsUnique(users, i, MergeProfile(users[i], firstName, lastName, email));
    }
  }

  // ---------------------------------------------------------------------
  // saveSpotifyStory and removeSpotifyStory
  // ---------------------------------------------------------------------

  /** `saveSpotifyStory` for the authenticated user `userId`. */
  function SaveSpotifyStory(users: seq<User>, userId: string, storyId: string): (r: Reply<seq<User>>)
    ensures storyId == "" ==> r == Reply(StatusBadRequest, users)
    ensures r.status != StatusOk ==> r.state == users
    ensures storyId != "" && FindOne(users, ById(userId)).None? ==> r.status == StatusNotFound
    ensures r.status == StatusConflict <==>
              storyId != "" && FindOne(users, ById(userId)).Some?
              && storyId in users[FindOne(users, ById(userId)).value].savedStories
    ensures r.status == StatusOk <==>
              storyId != "" && FindOne(users, ById(userId)).Some?
              && storyId !in users[FindOne(users, ById(userId)).value].savedStories
    ensures r.status == StatusOk ==>
              && FindOne(users, ById(userId)).Some?
              && var i := FindOne(users, ById(userId)).value;
                 && storyId !in users[i].savedStories
                 && r.state == Store(users, i, users[i].(savedStories := users[i].savedStories + [storyId]))
  {
    if storyId == "" then Reply(StatusBadRequest, users)
    else
      match FindOne(users, ById(userId))
      case None => Reply(StatusNotFound, users)
      case Some(i) =>
        var u := users[i];
        if storyId in u.savedStories then Reply(StatusConflict, users)
        else Reply(StatusOk, Store(users, i, u.(savedStories := u.savedStories + [storyId])))
  }

  /** `removeSpotifyStory` for the authenticated user `userId`. */
  function RemoveSpotifyStory(users: seq<User>, userId: string, storyId: string): (r: Reply<seq<User>>)
    ensures storyId == "" ==> r == Reply(StatusBadRequest, users)
    ensures r.status != StatusOk ==> r.state == users
    ensures storyId != "" && FindOne(users, ById(userId)).Some?
            && storyId !in users[FindOne(users, ById(userId)).value].savedStories ==>
              r == Reply(StatusNotFound, users)
    ensures storyId != "" && FindOne(users, ById(userId)).None? ==> r == Reply(StatusNotFound, users)
    ensures r.status == StatusOk <==>
              storyId != "" && FindOne(users, ById(userId)).Some?
              && IndexOf(users[FindOne(users, ById(userId)).value].savedStories, storyId).Some?
    ensures r.status == StatusOk ==>
              && FindOne(users, ById(userId)).Some?
              && var i := FindOne(users, ById(userId)).value;
                 var stories := users[i].savedStories;
                 && IndexOf(stories, storyId).Some?
                 && r.state == Store(users, i, users[i].(savedStories := RemoveAt(stories, IndexOf(stories, storyId).value)))
  {
    if storyId == "" then Reply(StatusBadRequest, users)
    else
      match FindOne(users, ById(userId))
      case None => Reply(StatusNotFound, users)
      case Some(i) =>
        var u := users[i];
        match IndexOf(u.savedStories, storyId)
        case None => Reply(StatusNotFound, users)
        case Some(k) => Reply(StatusOk, Store(users, i, u.(savedStories := RemoveAt(u.savedStories, k))))
  }

  /** Every account's saved list is free of repeats. */
  predicate StoriesDistinct(users: seq<User>)
  {
    forall k :: 0 <= k < |users| ==> NoDuplicates(users[k].savedStories)
  }

  /** Saving and removing keep every saved list free of repeats, and a
      removal from a repeat-free list leaves the story absent. */
  lemma StoriesStayDistinct(users: seq<User>, userId: string, storyId: string)
    requires StoriesDistinct(users)
    ensures StoriesDistinct(SaveSpotifyStory(users, userId, storyId).state)
    ensures StoriesDistinct(RemoveSpotifyStory(users, userId, storyId).state)
    ensures var r := RemoveSpotifyStory(users, userId, storyId);
            r.status == StatusOk ==> storyId !in r.state[FindOne(users, ById(userId)).value].savedStories
  {
    var r := RemoveSpotifyStory(users, userId, storyId);
    if r.status == StatusOk {
      var i := FindOne(users, ById(userId)).value;
      var s := users[i].savedStories;
      var k := IndexOf(s, storyId).value;
      var s' := RemoveAt(s, k);
      assert s' == r.state[i].savedStories;
      forall p, q | 0 <= p < q < |s'|
        ensures s'[p] != s'[q]
      {
        var p' := if p < k then p else p + 1;
        var q' := if q < k then q else q + 1;
        assert s'[p] == s[p'] && s'[q] == s[q'];
      }
      forall p | 0 <= p < |s'|
        ensures s'[p] != storyId
      {
        var p' := if p < k then p else p + 1;
        assert s'[p] == s[p'];
      }
    }
  }

  /** `findOne` by id sees only the ids, so two collections that agree on
      every id answer alike. */
  lemma FindOneByIdSameIds(a: seq<User>, b: seq<User>, id: string)
    requires |a| == |b|
    requires forall k :: 0 <= k < |a| ==> a[k].id == b[k].id
    ensures FindOne(a, ById(id)) == FindOne(b, ById(id))
  {
    var ra, rb := FindOne(a, ById(id)), FindOne(b, ById(id));
    if ra.Some? && rb.Some? {
      if ra.value < rb.value {
        assert Matches(b[ra.value], ById(id));
      } else if rb.value < ra.value {
        assert Matches(a[rb.value], ById(id));
      }
    } else if ra.Some? {
      assert Matches(b[ra.value], ById(id));
    } else if rb.Some? {
      assert Matches(a[rb.value], ById(id));
    }
  }

  /** The saved story is the last element of the list and nowhere before. */
  lemma IndexOfAppended(s: seq<string>, x: string)
    requires x !in s
    ensures IndexOf(s + [x], x) == Some(|s|)
    ensures RemoveAt(s + [x], |s|) == s
  {
    assert forall k :: 0 <= k < |s| ==> (s + [x])[k] == s[k];
  }

  /** Removing a story right after saving it restores the account exactly. */
  lemma SaveThenRemoveRestores(users: seq<User>, userId: string, storyId: string)
    requires SaveSpotifyStory(users, userId, storyId).status == StatusOk
    ensures RemoveSpotifyStory(SaveSpotifyStory(users, userId, storyId).state, userId, storyId)
              == Reply(StatusOk, users)
  {
    var i := FindOne(users, ById(userId)).value;
    var u := users[i];
    var s := u.savedStories;
    var saved := Store(users, i, u.(savedStories := s + [storyId]));
    assert SaveSpotifyStory(users, userId, storyId).state == saved;
    FindOneByIdSameIds(saved, users, userId);
    IndexOfAppended(s, storyId);
    assert Store(saved, i, saved[i].(savedStories := s)) == users;
  }

  // ---------------------------------------------------------------------
  // The saved-stories handlers as written
  // ---------------------------------------------------------------------

  /** `saveSpotifyStory` and `removeSpotifyStory` as written. The user
      schema declares no `saved_stories` path, so a loaded document has no
      accessor for it and `user.saved_stories` is `undefined`; `.includes`
      in the one and `.indexOf` in the other then throw a TypeError, which
      reaches the error middleware and ends as 500. Both handlers behave
      alike up to that point. */
  function SavedStoriesAsWritten(users: seq<User>, userId: string, storyId: string): (r: Reply<seq<User>>)
    ensures r.state == users
    ensures r.status != StatusOk
    ensures r.status == StatusServerError <==> storyId != "" && FindOne(users, ById(userId)).Some?
  {
    if storyId == "" then Reply(StatusBadRequest, users)
    else
      match FindOne(users, ById(userId))
      case None => Reply(StatusNotFound, users)
      case Some(_) => Reply(StatusServerError, users)
  }

  /** The discrepancy: for an existing account and a story it has not
      saved, the handler as written answers 500, where the intended handler
      saves the story and a removal then takes it out again. */
  lemma SavedStoriesAsWrittenFail(users: seq<User>, userId: string, storyId: string)
    requires storyId != "" && FindOne(users, ById(userId)).Some?
    requires storyId !in users[FindOne(users, ById(userId)).value].savedStories
    ensures SavedStoriesAsWritten(users, userId, storyId) == Reply(StatusServerError, users)
    ensures SavedStoriesAsWritten(SaveSpotifyStory(users, userId, storyId).state, userId, storyId).status
              == StatusServerError
    ensures SaveSpotifyStory(users, userId, storyId).status == StatusOk
    ensures RemoveSpotifyStory(SaveSpotifyStory(users, userId, storyId).state, userId, storyId) == Reply(StatusOk, users)
  {
    var saved := SaveSpotifyStory(users, userId, storyId).state;
    SaveThenRemoveRestores(users, userId, storyId);
    FindOneByIdSameIds(saved, users, userId);
  }
}

=== FILE: user_model.dfy ===
/** The user document (src/models/userModel.js) with its defaults, the
    `findOne` filters the user handlers query with, and the e-mail pattern
    `createUser` checks, `/^[^\s@]+@[^\s@]+\.[^\s@]+$/`. */
module UserModel {
  import opened Common

  /** Avatar a user document gets when none is given. */
  const DefaultAvatar: string := "https://cdn-icons-png.flaticon.com/512/1326/1326405.png"

  /** Avatars `createUser` picks from at random. */
  const AvatarImages: seq<string> := [
    "https://cdn-icons-png.flaticon.com/512/4322/4322991.png",
    "https://cdn-icons-png.flaticon.com/512/1326/1326377.png",
    "https://cdn-icons-png.flaticon.com/512/2632/2632839.png",
    "https://cdn-icons-png.flaticon.com/512/3940/3940403.png",
    "https://cdn-icons-png.flaticon.com/512/3940/3940417.png",
    "https://cdn-icons-png.flaticon.com/512/1326/1326405.png",
    "https://cdn-icons-png.flaticon.com/512/1326/1326390.png",
    "https://cdn-icons-png.flaticon.com/512/1760/1760998.png"
  ]

  /** Lifetime of an e-mail verification token: two hours, in milliseconds. */
  const VerifyTokenLifetime: int := 7200000

  /** A user document. Times are milliseconds since the epoch; an absent
      time or token is `None`. `password` holds the hash, never the clear
      text. The reset-code fields and `savedStories` are the ones the
      handlers read and write (`reset_password_otp`,
      `reset_password_otp_expires_in`, `saved_stories`). */
  datatype User = User(
    id: string,
    avatar: string,
    firstName: string,
    lastName: string,
    email: string,
    password: string,
    verified: bool,
    verifyToken: Option<string>,
    verifyTokenExpires: Option<int>,
    resetToken: Option<string>,
    resetExpires: Option<int>,
    resetCode: Option<string>,
    resetCodeExpires: Option<int>,
    savedStories: seq<string>,
    active: bool,
    isAdmin: bool,
    isAuthor: bool)

  /** A user as `User.create` stores it from the registration handler's
      fields, with the schema defaults for everything else. */
  function NewUser(id: string, avatar: string, firstName: string, lastName: string, email: string,
                   passwordHash: string, verifyToken: string, verifyTokenExpires: int): (u: User)
    ensures !u.verified && u.active && !u.isAdmin && !u.isAuthor
    ensures u.email == email && u.password == passwordHash
    ensures u.verifyToken == Some(verifyToken) && u.verifyTokenExpires == Some(verifyTokenExpires)
    ensures u.resetToken.None? && u.resetCode.None? && u.savedStories == []
  {
    User(id, avatar, firstName, lastName, email, passwordHash, false, Some(verifyToken),
         Some(verifyTokenExpires), None, None, None, None, [], true, false, false)
  }

  /** The `findOne` filters the user handlers use. */
  datatype Query =
    | ByEmail(email: string)
    | ById(id: string)
    | ByVerifyToken(token: string)
    | ByResetToken(userId: string, token: string, now: int)
    | ByResetCode(code: string, now: int)

  /** `$gt: now` on a time field: an absent field never matches. */
  predicate Later(t: Option<int>, now: int)
  {
    t.Some? && t.value > now
  }

  predicate Matches(u: User, q: Query)
  {
    match q
    case ByEmail(e) => u.email == e
    case ById(id) => u.id == id
    case ByVerifyToken(t) => u.verifyToken == Some(t)
    case ByResetToken(id, t, now) => u.id == id && u.resetToken == Some(t) && Later(u.resetExpires, now)
    case ByResetCode(c, now) => u.resetCode == Some(c) && Later(u.resetCodeExpires, now)
  }

  /** `findOne`: the first document in natural order the filter matches. */
  function FindOne(users: seq<User>, q: Query): (r: Option<nat>)
    ensures r.Some? ==> r.value < |users| && Matches(users[r.value], q)
    ensures r.Some? ==> forall k :: 0 <= k < r.value ==> !Matches(users[k], q)
    ensures r.None? <==> forall k :: 0 <= k < |users| ==> !Matches(users[k], q)
  {
    if |users| == 0 then None
    else if Matches(users[0], q) then Some(0)
    else
      match FindOne(users[1..], q)
      case None =>
        assert forall k :: 1 <= k < |users| ==> users[k] == users[1..][k - 1];
        None
      case Some(k) => Some(k + 1)
  }

  /** The unique index on `email`. */
  predicate EmailsUnique(users: seq<User>)
  {
    forall i, j :: 0 <= i < j < |users| ==> users[i].email != users[j].email
  }

  // ---------------------------------------------------------------------
  // The e-mail pattern
  // ---------------------------------------------------------------------

  /** JavaScript's `\s`: the ECMAScript white-space and line-terminator
      characters. */
  predicate IsJsWhitespace(c: char)
  {
    || c == '\t' || c == '\n' || c == '\U{000B}' || c == '\U{000C}' || c == '\r' || c == ' '
    || c == '\U{00A0}' || c == '\U{1680}' || ('\U{2000}' <= c <= '\U{200A}')
    || c == '\U{2028}' || c == '\U{2029}' || c == '\U{202F}' || c == '\U{205F}'
    || c == '\U{3000}' || c == '\U{FEFF}'
  }

  /** A character of the class `[^\s@]`. */
  predicate EmailChar(c: char)
  {
    c != '@' && !IsJsWhitespace(c)
  }

  /** A match of `[^\s@]+`. */
  predicate EmailRun(s: string)
  {
    |s| > 0 && forall k :: 0 <= k < |s| ==> EmailChar(s[k])
  }

  /** The pattern read literally: a run, `@`, a run, a dot, a run. The
      middle run may itself contain dots, so any dot that is neither the
      first character after the `@` nor the last character can be the
      separating one. */
  predicate MatchesEmailPattern(s: string)
  {
    exists i, k :: 0 < i < k < |s| - 1 && s[i] == '@' && s[k] == '.'
                   && EmailRun(s[..i]) && EmailRun(s[i + 1..k]) && EmailRun(s[k + 1..])
  }

  /** The same language described character by character: no white space,
      exactly one `@`, not first, and a dot at least two places after it
      that is not the last character. */
  predicate SingleAtShape(s: string)
  {
    && (forall j :: 0 <= j < |s| ==> !IsJsWhitespace(s[j]))
    && exists i :: 0 < i < |s| && s[i] == '@'
                   && (forall j :: 0 <= j < |s| && j != i ==> s[j] != '@')
                   && (exists k :: i + 1 < k < |s| - 1 && s[k] == '.')
  }

  lemma PatternGivesShape(s: string)
    requires MatchesEmailPattern(s)
    ensures SingleAtShape(s)
  {
    var i, k :| 0 < i < k < |s| - 1 && s[i] == '@' && s[k] == '.'
                && EmailRun(s[..i]) && EmailRun(s[i + 1..k]) && EmailRun(s[k + 1..]);
    forall j | 0 <= j < |s| && j != i
      ensures EmailChar(s[j])
    {
      if j < i {
        assert s[j] == s[..i][j];
      } else if j < k {
        assert s[j] == s[i + 1..k][j - i - 1];
      } else if j > k {
        assert s[j] == s[k + 1..][j - k - 1];
      }
    }
  }

  lemma ShapeGivesPattern(s: string)
    requires SingleAtShape(s)
    ensures MatchesEmailPattern(s)
  {
    var i :| 0 < i < |s| && s[i] == '@'
             && (forall j :: 0 <= j < |s| && j != i ==> s[j] != '@')
             && (exists k :: i + 1 < k < |s| - 1 && s[k] == '.');
    var k :| i + 1 < k < |s| - 1 && s[k] == '.';
    assert forall j :: 0 <= j < |s| && j != i ==> EmailChar(s[j]);
    assert EmailRun(s[..i]) by {
      forall j | 0 <= j < i ensures EmailChar(s[..i][j]) { assert s[..i][j] == s[j]; }
    }
    var middle, last := s[i + 1..k], s[k + 1..];
    assert EmailRun(middle) by {
      forall j | 0 <= j < |middle| ensures EmailChar(middle[j]) { assert middle[j] == s[i + 1 + j]; }
    }
    assert EmailRun(last) by {
      forall j | 0 <= j < |last| ensures EmailChar(last[j]) { assert last[j] == s[k + 1 + j]; }
    }
  }

  /** The two descriptions of the pattern agree on every string. */
  lemma EmailPatternIff(s: string)
    ensures MatchesEmailPattern(s) <==> SingleAtShape(s)
  {
    if MatchesEmailPattern(s) { PatternGivesShape(s); }
    if SingleAtShape(s) { ShapeGivesPattern(s); }
  }

  /** `emailRegex.test(email)` as one left-to-right scan. */
  method TestEmail(s: string) returns (ok: bool)
    ensures ok <==> MatchesEmailPattern(s)
  {
    var sawSpace := false;
    var at := -1;
    var secondAt := false;
    var dot := false;
    var k := 0;
    while k < |s|
      invariant 0 <= k <= |s|
      invariant sawSpace <==> exists j :: 0 <= j < k && IsJsWhitespace(s[j])
      invariant -1 <= at < k
      invariant at == -1 ==> forall j :: 0 <= j < k ==> s[j] != '@'
      invariant at >= 0 ==> s[at] == '@' && forall j :: 0 <= j < at ==> s[j] != '@'
      invariant at == -1 ==> !secondAt && !dot
      invariant at >= 0 ==> (secondAt <==> exists j :: at < j < k && s[j] == '@')
      invariant at >= 0 ==> (dot <==> exists j :: at + 1 < j < k && j < |s| - 1 && s[j] == '.')
    {
      var c := s[k];
      if IsJsWhitespace(c) {
        sawSpace := true;
      }
      if c == '@' {
        if at == -1 {
          at := k;
        } else {
          secondAt := true;
        }
      } else if c == '.' && at >= 0 && at + 1 < k < |s| - 1 {
        dot := true;
      }
      k := k + 1;
    }
    ok := !sawSpace && at > 0 && !secondAt && dot;
    EmailPatternIff(s);
    if ok {
      assert forall j :: 0 <= j < |s| && j != at ==> s[j] != '@';
    }
  }
}
